=== FILE: README.md ===
# Forex Resignal signal pipeline, modelled in Dafny

This project models the parts of the Forex Resignal website that compute things:

- **The three signal endpoints.**
  - `GET /api/signals/data` filters, sorts and pages the fixed fallback records. It also turns a stored trade document into a display signal, deriving profit, success, take-profit levels and stop loss.
  - `GET /api/signals/daily` normalises loosely typed daily documents: numeric coercion, type normalisation and field precedence. It sums the profit, and serves searched fallback records when the store fails.
  - `GET /api/signals/monthly` searches the fixed monthly records and sums their profit.
- **The signals page.** It filters and sorts its sample records on the client.
- **The contact endpoint.** It runs a validation ladder, checks the email pattern, and chooses the reply for a development-mode send or a failed send.
- **The translation function `t`** of the language provider. It walks a dotted key through the loaded translation tree and falls back to the key itself.
- **The three tables.**
  - Each keeps a set of expanded rows: a class whose `Toggle` method updates it in place.
  - The monthly and signals tables ask their parent for a sort when a header is clicked. The daily table receives a sort callback but never calls it.
  - The daily table chooses price decimals, the profit sign, the colours of profit, status and type, and the Farsi status label.
  - The monthly table chooses the colours of status, type and profit, and the status and type texts.
  - The signals table chooses the colours of status, type and profit, the status and type texts, and the take-profit and volume cells.

Modules follow the source files:

| module | file |
|---|---|
| `SignalData` | `signal_data.dfy` |
| `DailySignals` | `daily_signals.dfy` |
| `MonthlySignals` | `monthly_signals.dfy` |
| `SignalsPage` | `signals_page.dfy` |
| `Contact` | `contact.dfy` |
| `Translation` | `translation.dfy` |
| `TableView` | `table_view.dfy` (the parts the three tables share) |
| `DailyTable` | `daily_table.dfy` |
| `MonthlyTable` | `monthly_table.dfy` |
| `SignalsTableView` | `signals_table.dfy` |

`Strings`, `Collections` and `Optional` hold the JavaScript library behaviour the code relies on:

- `toLowerCase`, `includes`, `trim`, `split` and `join`;
- `localeCompare`, `parseInt` and `parseFloat`;
- `filter` and `reduce`;
- `??`.

Prices and profits are real numbers.

Two consequences of the code are worth knowing:

- Cleaning removes every character other than digits, signs and '.' before `parseFloat`, so `"1e5"` is read as 15 (`DailySignals.ParseNumberExponent`).
- The daily fallback and the monthly records are searched too, so a search that matches nothing gives an empty list (`DailySignals.FallbackIsSearch`, `MonthlySignals.SearchIsFilter`).

## Model

| member | source | states |
|---|---|---|
| SignalData.InOrderTotal | src/app/api/signals/data/route.ts:353-361 | every sort order compares any two signals one way or the other |
| SignalData.InOrderTransitive | src/app/api/signals/data/route.ts:353-361 | every sort order (pair by `localeCompare`, newest, oldest by `parseInt(id)`) is transitive |
| SignalData.Insert | src/app/api/signals/data/route.ts:353-361 | inserting adds exactly the one element and nothing else (as multisets) |
| SignalData.InsertKeepsSorted | src/app/api/signals/data/route.ts:353-361 | inserting into a list sorted by the comparator keeps it sorted |
| SignalData.SortSignals | src/app/api/signals/data/route.ts:353-361 | the sorted copy is a permutation of the filtered records and is ordered by the requested key |
| SignalData.SortKeepsSorted | src/app/api/signals/data/route.ts:353-361 | sorting a list already in order changes nothing |
| SignalData.InsertTies | src/app/api/signals/data/route.ts:353-361 | an inserted element goes ahead of every element it compares equal to |
| SignalData.SortIsStable | src/app/api/signals/data/route.ts:353-361 | the sort is stable: for every element, the elements that compare equal to it come out in their input order |
| SignalData.IdNumber | src/app/api/signals/data/route.ts:356-360 | the number `parseInt` reads from an id; `MockIdsAreNumbered` shows the ids "1" to "12" read as 1 to 12 |
| SignalData.Results | src/app/api/signals/data/route.ts:346-361 | the filtered and sorted records are a permutation of the matches, ordered by the requested key |
| SignalData.GetMockSignals | src/app/api/signals/data/route.ts:206-376 | the fallback's `total` is at most the twelve records and a page holds at most `limit` of them |
| SignalData.DeriveOutcome | src/app/api/signals/data/route.ts:116-139 | the profit and success of a document; specified by `StoredProfitWins`, `ClosedTradeSuccess`, `SuccessAgreesWithProfit` and `NoEntryNoProfit` |
| SignalData.DeriveStopLoss | src/app/api/signals/data/route.ts:147-155 | the stop loss; `StopLossSide` places it below a buy's entry, above a sell's, and at 0 otherwise |
| SignalData.ToSignal | src/app/api/signals/data/route.ts:109-170 | the display signal of a document; specified by `EmptyDocumentDefaults`, `PremiumPrecedence` and `TransformedSignalIsComplete`, and computed step by step by `TransformDocument` |
| SignalData.PageStart | src/app/api/signals/data/route.ts:364 | page 1 starts at index 0 |
| SignalData.Slice | src/app/api/signals/data/route.ts:364-368 | `slice(start, start + limit)` has `min(limit, max(0, n - start))` elements, taken in order from `start` |
| SignalData.QuerySignals | src/app/api/signals/data/route.ts:345-376 | `total` counts every match regardless of paging; the page holds `min(limit, total - (page-1)*limit)` results, the sorted matches from `(page-1)*limit` on |
| SignalData.QueryResultsMatch | src/app/api/signals/data/route.ts:346-350 | every returned signal is one of the records, its pair contains the search ignoring case, and its type is the requested one unless "all" |
| SignalData.QueryTotalIgnoresPaging | src/app/api/signals/data/route.ts:370-373 | `total` is the same for every page, limit and sort |
| SignalData.ResultsSortedPermutation | src/app/api/signals/data/route.ts:346-361 | the sorted results are a permutation of the matches, ordered by pair for "pair", by falling id for "newest" and by rising id for any other sort |
| SignalData.FirstPageIsComplete | src/app/api/signals/data/route.ts:363-368 | when `limit` covers all matches, page 1 is the whole sorted result |
| SignalData.MockIdsAreNumbered | src/app/api/signals/data/route.ts:213-343 | the twelve fallback records carry ids 1 to 12 in order |
| SignalData.StoredProfitWins | src/app/api/signals/data/route.ts:119-122 | a non-zero stored profit decides the outcome whatever the prices, volume and type, and success means it is positive |
| SignalData.ClosedTradeSuccess | src/app/api/signals/data/route.ts:123-132 | without a stored profit, a trade with entry, exit and volume succeeds exactly when the exit moved in the trade's favour (up for a buy, down otherwise) |
| SignalData.SuccessAgreesWithProfit | src/app/api/signals/data/route.ts:116-139 | with a positive volume, success holds exactly when the derived profit is positive |
| SignalData.NoEntryNoProfit | src/app/api/signals/data/route.ts:116-139 | without a stored profit or an entry price, the profit is 0 and the trade is not a success |
| SignalData.TakeProfitLevels | src/app/api/signals/data/route.ts:141-145 | the take-profit list is the exit price alone when it is positive, and empty otherwise |
| SignalData.StopLossSide | src/app/api/signals/data/route.ts:147-155 | the stop loss lies exactly 0.2% of the entry (a 500th) below a buy's entry and above a sell's; it is 0 without an entry or for another type |
| SignalData.TransformDocument | src/app/api/signals/data/route.ts:109-170 | the step-by-step transformation returns the signal the specification function `ToSignal` describes |
| SignalData.EmptyDocumentDefaults | src/app/api/signals/data/route.ts:110-114 | an empty document becomes an unsuccessful, free buy with empty id and pair, timestamp "Unknown", price, profit and stop loss 0, volume 0.01 and no take-profit |
| SignalData.PremiumPrecedence | src/app/api/signals/data/route.ts:166 | `isPremium` wins over `premium`, and both absent means not premium |
| SignalData.TransformedSignalIsComplete | src/app/api/signals/data/route.ts:157-169 | a transformed signal always has success, profit and volume, and at most one take-profit level |
| SignalsPage.OrderKey | src/app/signals/page.tsx:176-186 | the page's three sort orders compare exactly as the endpoint's "newest", "oldest" and "pair" sorts |
| SignalsPage.Visible | src/app/signals/page.tsx:169-186 | the visible cards are a permutation of the matching samples, in the selected order |
| SignalsPage.VisibleAreShown | src/app/signals/page.tsx:169-173 | a sample is visible exactly when its pair contains the query ignoring case and its type passes the type filter |
| SignalsPage.VisibleOrder | src/app/signals/page.tsx:176-186 | the cards are ordered by pair, by falling id or by rising id, as selected |
| SignalsPage.EmptyQueryShowsAll | src/app/signals/page.tsx:169-186 | an empty query with "all" shows every sample, and "oldest" keeps a list already in id order unchanged |
| SignalsPage.SamplesInIdOrder | src/app/signals/page.tsx:27-157 | the twelve samples are listed in id order |
| SignalsPage.EmptyQueryShowsTwelve | src/app/signals/page.tsx:305-311 | with no query and no type filter all twelve cards are rendered, whatever the order |
| SignalsPage.EmptyQueryOldestIsListed | src/app/signals/page.tsx:176-186 | "oldest" with no filter shows the samples as listed |
| SignalsPage.SamplesAreMockSignals | src/app/signals/page.tsx:27-157 | the page's samples are the endpoint's twelve fallback records |
| SignalsPage.ShownIsMatchesQuery | src/app/signals/page.tsx:169-173 | the page's filter test is the endpoint's filter test |
| SignalsPage.PageIsFirstEndpointPage | src/app/signals/page.tsx:169-186 | the page shows what page 1 of the endpoint's fallback returns for the same query, whenever the limit is at least 12 |
| DailySignals.CleanNumeric | src/app/api/signals/daily/route.ts:74 | the cleaned text holds only digits, '+', '-' and '.' |
| DailySignals.FractionDigits | src/app/api/signals/daily/route.ts:75 | the fraction part `parseFloat` reads is a run of digits |
| DailySignals.FractionValue | src/app/api/signals/daily/route.ts:75 | the digits after the point add at least 0 and less than 1, and nothing when there are none |
| DailySignals.ParseNumberFallback | src/app/api/signals/daily/route.ts:71-79 | a value that is neither a number nor a string gives the fallback |
| DailySignals.ParseNumberIgnoresNoise | src/app/api/signals/daily/route.ts:73-76 | a string is read as its cleaned text would be |
| DailySignals.LeadingDigitsOfDigits | src/app/api/signals/daily/route.ts:75 | `parseFloat` reads a run of digits whole |
| DailySignals.UnsignedPrefixOfDigits | src/app/api/signals/daily/route.ts:75 | an unsigned run of digits is read as its decimal value |
| DailySignals.ParseFloatDigits | src/app/api/signals/daily/route.ts:75 | a run of digits is read as its decimal value |
| DailySignals.ParseFloatSigned | src/app/api/signals/daily/route.ts:75 | a leading '-' negates the value read after it, and a leading '+' keeps it |
| DailySignals.UnsignedPrefixFraction | src/app/api/signals/daily/route.ts:75 | digits, a point and digits are read whole: the integer part plus the fraction |
| DailySignals.ParseFloatFraction | src/app/api/signals/daily/route.ts:75 | an unsigned decimal with a fraction is read as its decimal value |
| DailySignals.CleanDropsTwo | src/app/api/signals/daily/route.ts:74 | cleaning removes the non-numeric characters around a numeric one and keeps a numeric tail |
| DailySignals.CleanKeepsNumeric | src/app/api/signals/daily/route.ts:74 | cleaning leaves text made only of digits, signs and dots unchanged |
| DailySignals.ParseFloat | src/app/api/signals/daily/route.ts:75 | `parseFloat`: an optional sign, digits and a fraction; specified by `ParseFloatDigits`, `ParseFloatSigned`, `ParseFloatFraction` and `ParseFloatSignsOnly` |
| DailySignals.ParseNumber | src/app/api/signals/daily/route.ts:71-79 | `parseNumber`; specified by `ParseNumberFallback`, `ParseNumberString` and the round trip `ParseNumberReadsDecimal` |
| DailySignals.ToDailySignal | src/app/api/signals/daily/route.ts:81-108 | the display record of a daily document; `DailyFieldPrecedence` gives every field's source and default for any document, `EmptyDailyDocumentDefaults` the all-empty case and `PremiumTagIff` the tier |
| DailySignals.ParseNumberReadsDecimal | src/app/api/signals/daily/route.ts:71-79 | the decimal text of any whole number, with or without a sign, is read back as that number (round trip) |
| DailySignals.ParseNumberString | src/app/api/signals/daily/route.ts:73-77 | a string gives the number `parseFloat` reads from its cleaned text, or the fallback when none is read |
| DailySignals.CleanCurrency | src/app/api/signals/daily/route.ts:74 | "$1,234.5" is cleaned to "1234.5" |
| DailySignals.ParseFloatDecimal | src/app/api/signals/daily/route.ts:75 | "1234.5" is read as 1234.5 |
| DailySignals.ParseNumberCurrency | src/app/api/signals/daily/route.ts:71-79 | "$1,234.5" is read as 1234.5 |
| DailySignals.LeadingDigitsStopsAt | src/app/api/signals/daily/route.ts:75 | the digits `parseFloat` reads stop at the first non-digit |
| DailySignals.CleanExponent | src/app/api/signals/daily/route.ts:74 | cleaning drops the 'e' of "1e5", leaving "15" |
| DailySignals.ParseFloatFifteen | src/app/api/signals/daily/route.ts:75 | "15" is read as 15 |
| DailySignals.ParseNumberExponent | src/app/api/signals/daily/route.ts:71-79 | "1e5" is read as 15, not 100000 |
| DailySignals.CleanNoDigits | src/app/api/signals/daily/route.ts:74 | "abc" cleans to "" and "--" stays "--" |
| DailySignals.ParseFloatSignsOnly | src/app/api/signals/daily/route.ts:75 | signs alone, or nothing, give no number |
| DailySignals.ParseNumberNoDigits | src/app/api/signals/daily/route.ts:71-79 | text without digits gives the fallback |
| DailySignals.NormalizeType | src/app/api/signals/daily/route.ts:83-88 | the type is always "buy" or "sell", and "sell" exactly when the lower-cased raw type mentions "sell" but not "buy" |
| DailySignals.PremiumTag | src/app/api/signals/daily/route.ts:106 | the tier tag is "premium" or "free" |
| DailySignals.EmptyDailyDocumentDefaults | src/app/api/signals/daily/route.ts:90-107 | an empty document becomes an "Active", free buy with empty id and pair, zero prices and profit, volume 0.1, and the current time |
| DailySignals.DailyFieldPrecedence | src/app/api/signals/daily/route.ts:90-107 | for every document: the entry comes from `entry`, then `entryPrice`; the stop loss from `stopLoss`, then `sl`; the target from `exit`, then `target`, then `tp`; the volume from `lot`, then `volume`; the pair is the trimmed `symbol`, else the trimmed `pair`, else ""; the status is the stored one or "Active"; the profit is the parsed `profit`; the id falls back to `id`, the time to the creation time and then now; the type is buy or sell |
| DailySignals.PremiumTagIff | src/app/api/signals/daily/route.ts:106 | "premium" exactly when `premium ?? isPremium` is truthy |
| DailySignals.LiveDaily | src/app/api/signals/daily/route.ts:81-119 | one display record per document, in order, with the sum of their profits |
| DailySignals.FallbackDaily | src/app/api/signals/daily/route.ts:168-185 | the fallback's total profit is the sum over the records it returns |
| DailySignals.GetDaily | src/app/api/signals/daily/route.ts:111-119 | on both paths `totalProfit` is the sum of the returned profits |
| DailySignals.FallbackIsSearch | src/app/api/signals/daily/route.ts:168-176 | the fallback is the matching records in order, and an empty search returns all three |
| DailySignals.FallbackTotalProfit | src/app/api/signals/daily/route.ts:178-181 | the three fallback records total 52.7 |
| DailySignals.FallbackProfitSplits | src/app/api/signals/daily/route.ts:168-181 | a search and its complement split the fallback's total profit |
| MonthlySignals.Search | src/app/api/signals/monthly/route.ts:163-168 | a search never returns more records than there are |
| MonthlySignals.GetMonthly | src/app/api/signals/monthly/route.ts:163-179 | `total` is the number of returned records and `totalProfit` their sum |
| MonthlySignals.EmptySearchReturnsAll | src/app/api/signals/monthly/route.ts:163-179 | an empty search returns all ten records |
| MonthlySignals.SearchIsFilter | src/app/api/signals/monthly/route.ts:163-168 | the search returns exactly the records whose pair contains the search ignoring case, in order |
| MonthlySignals.SearchSplitsProfit | src/app/api/signals/monthly/route.ts:163-174 | a search and its complement split the total profit |
| MonthlySignals.UnsuccessfulIffLoss | src/app/api/signals/monthly/route.ts:29-160 | in the fixed records, a trade is unsuccessful exactly when its profit is negative |
| MonthlySignals.TotalOfAllRecords | src/app/api/signals/monthly/route.ts:171-174 | the ten records total 61.91 |
| Contact.ValidEmailHasShape | src/app/api/contact/route.ts:8-11 | an accepted address matches `^[^\s@]+@[^\s@]+\.[^\s@]+$` |
| Contact.ShapedEmailIsValid | src/app/api/contact/route.ts:8-11 | every address matching the pattern is accepted |
| Contact.IsValidEmailMatchesPattern | src/app/api/contact/route.ts:8-11 | the check accepts exactly the addresses the pattern matches |
| Contact.PlainAddressIsValid | src/app/api/contact/route.ts:8-11 | "a@b.c" is accepted |
| Contact.DotlessDomainIsInvalid | src/app/api/contact/route.ts:8-11 | "a@bc" is rejected |
| Contact.SecondAtIsInvalid | src/app/api/contact/route.ts:8-11 | "a@b@c.d" is rejected |
| Contact.IsValidEmail | src/app/api/contact/route.ts:8-11 | the email check; `IsValidEmailMatchesPattern` shows it accepts exactly what the regular expression matches |
| Contact.Validate | src/app/api/contact/route.ts:50-69 | the form passes exactly when all four fields are truthy, the email is a string the check accepts and the message is not a string shorter than 10 characters; "Missing required fields" exactly when a field is falsy; otherwise one of the other two messages |
| Contact.Post | src/app/api/contact/route.ts:13-133 | a body that is not JSON, or `null`, is answered 500 "Failed to send message"; a send is attempted exactly for a valid form with the API key set and a string message; 200 exactly for a valid form in development mode or sent; 400 exactly for an invalid form; otherwise 500 |
| Contact.NonStringMessagePasses | src/app/api/contact/route.ts:50-69 | a truthy message that is not a string passes validation, since `undefined < 10` is false |
| Contact.NonStringMessageFailsToSend | src/app/api/contact/route.ts:72-125 | such a message is a development-mode success without a key, and with a key a 500 "Failed to send email" with nothing sent, because `message.replace` throws |
| Contact.MissingFieldWins | src/app/api/contact/route.ts:50-55 | a missing field is reported first |
| Contact.EmailCheckedBeforeLength | src/app/api/contact/route.ts:57-62 | a bad email is reported before a short message |
| Contact.MessageLengthBoundary | src/app/api/contact/route.ts:64-69 | a 9-character message is too short and a 10-character one passes |
| Contact.DevelopmentMode | src/app/api/contact/route.ts:72-85 | without the API key a valid form is answered 200 in development mode, and nothing is sent |
| Contact.SendFailure | src/app/api/contact/route.ts:117-125 | a send that throws is answered 500 with "Failed to send email" |
| Translation.Resolve | src/lib/language-context.tsx:40-46 | the walk of the key's segments; `ResolveAppend` and `DescendSegment` show it walks one segment after another |
| Translation.T | src/lib/language-context.tsx:36-49 | `t`; specified by `TranslateIsKeyOrLeaf` and computed by the loop of `Translate` |
| Translation.Child | src/lib/language-context.tsx:41-45 | only objects and arrays have members, and an object has exactly its own keys |
| Translation.Translate | src/lib/language-context.tsx:36-49 | the loop returns what the specification function `T` does: the string the key's segments lead to, or the key |
| Translation.ResolveAppend | src/lib/language-context.tsx:40-46 | walking two paths one after the other is walking their concatenation |
| Translation.DescendSegment | src/lib/language-context.tsx:37-46 | the first dotted segment is looked up first, and the rest of the key below it |
| Translation.MissingSegmentGivesKey | src/lib/language-context.tsx:41-45 | a missing segment anywhere makes `t` return the key |
| Translation.TranslateIsKeyOrLeaf | src/lib/language-context.tsx:48 | `t` returns the key or a string stored at the end of the key's path; a path ending elsewhere gives the key |
| Translation.NothingLoadedShowsKeys | src/lib/language-context.tsx:19 | before a translation file loads, every key is shown as itself |
| Translation.SingleSegment | src/lib/language-context.tsx:36-49 | a key without dots reads the top-level entry, or itself when absent |
| Translation.NestedEntry | src/lib/language-context.tsx:36-49 | a "parent.child" key reaches a nested string |
| Translation.ParentShowsKey | src/lib/language-context.tsx:48 | a key naming an object shows as the key |
| Translation.BelowStringShowsKey | src/lib/language-context.tsx:41-45 | nothing is found below a string, so such a key shows as itself |
| TableView.Toggled | src/components/ui/signals-table.tsx:41-49 | a click opens a closed row and closes an open one, and leaves every other row as it was |
| TableView.ToggleTwice | src/components/ui/signals-table.tsx:41-49 | two clicks on a row restore the set |
| TableView.ToggleCommutes | src/components/ui/signals-table.tsx:41-49 | clicks on different rows commute |
| TableView.ExpandedRows.constructor | src/components/ui/signals-table.tsx:39 | no row is expanded at first |
| TableView.ExpandedRows.Toggle | src/components/ui/signals-table.tsx:41-49 | the new set is the toggled old set, and the clicked row's expansion flips |
| TableView.HandleSort | src/components/ui/signals-table.tsx:51-57 | a request is sent exactly when there is a callback, for the clicked field, descending exactly when that field is already sorted ascending |
| TableView.RepeatedClicksAlternate | src/components/ui/monthly-signals-table.tsx:53-59 | repeated clicks on the sorted column alternate the direction |
| TableView.NewColumnStartsAscending | src/components/ui/monthly-signals-table.tsx:53-59 | a click on another column asks for ascending order |
| DailyTable.PriceDecimals | src/components/ui/daily-signals-table.tsx:51-53 | prices below 10 show 5 decimals and the others 2 |
| DailyTable.ProfitSign | src/components/ui/daily-signals-table.tsx:55-58 | a "+" is shown exactly for a profit of zero or more |
| DailyTable.ProfitTone | src/components/ui/daily-signals-table.tsx:64-68 | gains green, losses red, zero gray |
| DailyTable.StatusTone | src/components/ui/daily-signals-table.tsx:70-81 | the lower-cased status "successful" is green, "unsuccessful" red, "active" blue, and exactly anything else gray |
| DailyTable.TypeTone | src/components/ui/daily-signals-table.tsx:83-87 | green exactly for a type that lower-cases to "buy" |
| DailyTable.StatusLabel | src/components/ui/daily-signals-table.tsx:196-205 | in English, and for every other status, the status is shown as it is; in Farsi "Successful", "Unsuccessful" and "Active" each read as their Farsi word |
| DailyTable.ZeroProfitIsPlusButGray | src/components/ui/daily-signals-table.tsx:55-68 | a break-even trade shows "+" but in gray |
| DailyTable.StatusToneIgnoresCase | src/components/ui/daily-signals-table.tsx:70-81 | the status colour ignores case |
| DailyTable.LabelIsCaseSensitive | src/components/ui/daily-signals-table.tsx:196-205 | "successful" is coloured green but not translated |
| DailyTable.DailyRecordTones | src/app/api/signals/daily/route.ts:83-108 | every daily record is green exactly for a buy, and a record without a status is blue |
| MonthlyTable.OrElseText | src/components/ui/monthly-signals-table.tsx:92-96 | `a \|\| b` on strings keeps `a` unless it is empty |
| MonthlyTable.StatusTone | src/components/ui/monthly-signals-table.tsx:88-90 | green exactly for "Successful", red exactly for "Unsuccessful" |
| MonthlyTable.StatusText | src/components/ui/monthly-signals-table.tsx:92-96 | the status text; `TextsAreNeverEmpty` shows it is never empty and `UntranslatedTextsAreKeys` that it is the English key before translations load |
| MonthlyTable.TypeTone | src/components/ui/monthly-signals-table.tsx:98-100 | green exactly for a buy, red exactly for a sell |
| MonthlyTable.TypeText | src/components/ui/monthly-signals-table.tsx:102-104 | the type text; never empty, and the English key before translations load (`TextsAreNeverEmpty`, `UntranslatedTextsAreKeys`) |
| MonthlyTable.ProfitTone | src/components/ui/monthly-signals-table.tsx:106-108 | green exactly for a profit of zero or more |
| MonthlyTable.ZeroProfitTonesDiffer | src/components/ui/monthly-signals-table.tsx:106-108 | zero profit is green here and gray in the daily table |
| MonthlyTable.StatusToneMatchesProfitTone | src/components/ui/monthly-signals-table.tsx:88-108 | on the fixed records, the status badge and the profit share one colour |
| MonthlyTable.TranslatedOrElseNeverEmpty | src/components/ui/monthly-signals-table.tsx:92-104 | `t(key) \|\| text` is never empty for a non-empty key and text |
| MonthlyTable.TextsAreNeverEmpty | src/components/ui/monthly-signals-table.tsx:92-104 | status and type texts are never empty |
| MonthlyTable.UntranslatedTextsAreKeys | src/components/ui/monthly-signals-table.tsx:92-104 | before translations load, the texts are the English keys, not the Farsi words |
| SignalsTableView.StatusTone | src/components/ui/signals-table.tsx:81-85 | won green, lost red, and a signal without an outcome yellow |
| SignalsTableView.StatusText | src/components/ui/signals-table.tsx:87-91 | the status text as written; `UntranslatedStatusIsKey` shows the Farsi word is not reached before translations load |
| SignalsTableView.UntranslatedStatusIsKey | src/components/ui/signals-table.tsx:87-91 | with nothing loaded an open signal reads "open", not the Farsi word |
| SignalsTableView.TextOr | src/components/ui/signals-table.tsx:87-91 | the fallback is used when the key leads nowhere, and a non-empty translation is kept |
| SignalsTableView.StatusTextOrFarsi | src/components/ui/signals-table.tsx:87-91 | the corrected status text; specified by `FallbackReachesFarsi` |
| SignalsTableView.TextOrKeepsTranslation | src/components/ui/signals-table.tsx:87-91 | where `t` finds a non-empty translation other than the key, the corrected and the written text agree |
| SignalsTableView.FallbackReachesFarsi | src/components/ui/signals-table.tsx:87-91 | with the corrected fallback, every untranslated status reads in Farsi, and each of the three statuses keeps its translation where one exists |
| SignalsTableView.TypeTone | src/components/ui/signals-table.tsx:93-95 | green exactly for "buy", red exactly for anything else |
| SignalsTableView.TypeText | src/components/ui/signals-table.tsx:97-99 | never empty; the translation of "buy" (or of "sell" for any other type) when it is non-empty, and the Farsi word exactly when it is empty |
| SignalsTableView.TakeProfitCell | src/components/ui/signals-table.tsx:201-205 | "-" without targets, and the one formatted target alone |
| SignalsTableView.TakeProfitSeparators | src/components/ui/signals-table.tsx:201-205 | `n` targets are joined with `n - 1` commas |
| SignalsTableView.VolumeCell | src/components/ui/signals-table.tsx:218 | "-" for an absent or zero volume, otherwise the formatted volume |
| SignalsTableView.ProfitTone | src/components/ui/signals-table.tsx:223-228 | a missing profit counts as zero and is green |
| SignalsTableView.StoredSignalsAreNeverOpen | src/components/ui/signals-table.tsx:81-85 | a signal built from a stored document is never yellow, and always has profit and volume |
| Strings.Lower | src/app/api/signals/data/route.ts:348 | lower-casing keeps the length and maps each character |
| Strings.LowerIdempotent | src/components/ui/daily-signals-table.tsx:71 | lower-casing twice is lower-casing once |
| Strings.IncludesIff | src/app/api/signals/data/route.ts:348 | `includes` holds exactly when the text occurs at some position |
| Strings.IncludesEmpty | src/app/api/signals/data/route.ts:348 | every text includes the empty search |
| Strings.Trim | src/app/api/signals/daily/route.ts:92 | `trim` removes the leading and trailing whitespace and nothing else |
| Strings.LexLeTotal | src/app/api/signals/data/route.ts:355 | the pair order compares any two pairs |
| Strings.LexLeTransitive | src/app/api/signals/data/route.ts:355 | the pair order is transitive |
| Strings.LexLeAntisymmetric | src/app/api/signals/data/route.ts:355 | two pairs each before the other are equal |
| Strings.Split | src/lib/language-context.tsx:37 | `split` gives at least one segment, none containing the separator |
| Strings.JoinSplit | src/lib/language-context.tsx:37 | joining the segments back gives the key (round trip) |
| Strings.SplitJoin | src/lib/language-context.tsx:37 | splitting joined separator-free segments gives them back (round trip) |
| Strings.DecimalStringValue | src/app/api/signals/data/route.ts:356-360 | `parseInt` reads a number's decimal text back as the number |
| Collections.Filter | src/app/api/signals/data/route.ts:346-350 | `filter` returns no more elements than it was given, all of them passing; `FilterMembers` and `FilterAppend` pin the content and the order |
| Collections.Sum | src/app/api/signals/monthly/route.ts:171-174 | the `reduce` sum; `SumAppend` and `SumFilterSplit` show it adds over concatenation and over a filter and its complement |
| Collections.FilterMembers | src/app/api/signals/data/route.ts:346-350 | `filter` keeps exactly the elements that pass, and only elements of the input |
| Collections.SumFilterSplit | src/app/api/signals/monthly/route.ts:171-174 | the sums of a filter and of its complement add up to the sum of the whole |

## Left out

- Floating point: prices and profits are exact reals. `toFixed` rounding, the 0.998 and 1.002 stop-loss factors in binary, and the rounding of profit sums are not modelled. `parseFloat` overflow to `Infinity` is not modelled either.
- `toLowerCase` is modelled on the ASCII letters only. Non-ASCII pairs and statuses are compared as written.
- `localeCompare` is modelled as code-point order, and `Array.prototype.sort` as a stable insertion sort. Collation rules of the runtime locale are not modelled.
- SignalData.QuerySignals: requires `page >= 1` and `limit >= 0`. `parseInt` of a missing or malformed `page` or `limit` gives `NaN`, and a page of 0 or less gives a negative slice start. Neither is modelled.
- SignalData.ToSignal, SignalData.TransformDocument: each document field is taken to hold the type the handler uses it as (numbers for prices, profit and volume, strings for id, symbol, type and time, booleans for the premium flags). The handler maps untyped documents, and three behaviours are lost. A number stored as a string passes through unconverted: a stored profit `"0"` passes `profit !== 0` and is returned as the string, with success false. A non-string `type` makes `toLowerCase` throw, and the handler then serves the fallback records with `isUsingMockData`. A numeric `id` is converted with `String`.
- The MongoDB store is left out: connection caching, `countDocuments`, the `$regex` query, `sort`, `skip`/`limit` and the `limit(50)` of the daily query. The live paths take the documents the store returned as a parameter. The fallback warning field is left out too.
- DailySignals.GetDaily: a store failure and an exception while transforming a document are both the single `None` input.
- Only the value kinds the daily route distinguishes are modelled: missing, boolean, number, NaN, infinite, string, object. `toString` of an object or a `Date` is not modelled. `_id.toString()` and `createdAt.toISOString()` are taken as already-computed optional strings.
- The clock is the `now` parameter.
- The contact endpoint's environment key and whether the Resend call throws are parameters. The mail body, logging and the commented-out origin check are left out. A body that is not JSON is the `NotJson` input, and the JSON `null` the `JsonNull` input.
- Contact.Validate, Contact.Post: an array or an object with its own `length` property is not modelled: an object field is taken to have no `length`, and its text is taken to contain no '@'. An array message of ten or more elements, or an array email whose joined text is an address, is therefore not modelled as the source handles it.
- Message length is counted in characters; JavaScript counts UTF-16 code units.
- The `in` test of `t` is modelled on own keys of objects and on indices and `length` of arrays. Inherited prototype members are not modelled.
- The language provider's fetch of translation files, `localStorage`, and the document direction are left out. The translations are a parameter.
- Rendering, animation, and the timestamp formatting with `toLocaleString` are left out. The premium badge text is left out too.
- The news and TradingView routes are not part of this model.
- Contact.IsValidEmailMatchesPattern: `\s` is the JavaScript whitespace set written out as characters.

## Findings

| source | as written | input that shows it | evidently intended | confidence | as-written member | corrected member |
|---|---|---|---|---|---|---|
| src/components/ui/signals-table.tsx:87-91 | `t("open") \|\| "باز"` uses the Farsi text only when `t` returns the empty string, but `t` returns the key itself for a missing translation | no translations loaded, a signal without an outcome: the cell reads "open" | the Farsi text when the key has no translation | medium, not executed | SignalsTableView.UntranslatedStatusIsKey | SignalsTableView.FallbackReachesFarsi |

The same `t(key) || text` pattern appears in `src/components/ui/monthly-signals-table.tsx:92-104` (`MonthlyTable.UntranslatedTextsAreKeys`).

=== FILE: collections.dfy ===
/** `Array.prototype.filter` and the `reduce` sums used by the signal endpoints. */
module Collections {

  /** The elements of `xs` that `keep` accepts, in their original order. */
  function Filter<T>(xs: seq<T>, keep: T -> bool): (r: seq<T>)
    ensures |r| <= |xs|
    ensures forall i :: 0 <= i < |r| ==> keep(r[i])
  {
    if xs == [] then []
    else
      var rest := Filter(xs[1..], keep);
      if keep(xs[0]) then [xs[0]] + rest else rest
  }

  /** What a filter returns is drawn from its input, and every accepted
      element of the input is in it. */
  lemma {:induction false} FilterMembers<T>(xs: seq<T>, keep: T -> bool)
    ensures forall x :: x in Filter(xs, keep) <==> x in xs && keep(x)
    ensures multiset(Filter(xs, keep)) <= multiset(xs)
  {
    if xs != [] {
      FilterMembers(xs[1..], keep);
      assert xs == [xs[0]] + xs[1..];
    }
  }

  /** Filtering distributes over concatenation: together with `FilterSingleton`
      this says the result is the order-preserving subsequence of accepted elements. */
  lemma {:induction false} FilterAppend<T>(a: seq<T>, b: seq<T>, keep: T -> bool)
    ensures Filter(a + b, keep) == Filter(a, keep) + Filter(b, keep)
  {
    if a == [] {
      assert a + b == b;
    } else {
      assert (a + b)[1..] == a[1..] + b;
      FilterAppend(a[1..], b, keep);
    }
  }

  lemma FilterSingleton<T>(x: T, keep: T -> bool)
    ensures Filter([x], keep) == if keep(x) then [x] else []
  {
    assert [x][1..] == [];
  }

  /** A filter that accepts everything returns its input unchanged. */
  lemma {:induction false} FilterKeepsAll<T>(xs: seq<T>, keep: T -> bool)
    requires forall x :: x in xs ==> keep(x)
    ensures Filter(xs, keep) == xs
  {
    if xs != [] {
      FilterKeepsAll(xs[1..], keep);
    }
  }

  /** Two filters that agree on every element give the same list. */
  lemma {:induction false} FilterCongruent<T>(xs: seq<T>, p: T -> bool, q: T -> bool)
    requires forall x :: x in xs ==> p(x) == q(x)
    ensures Filter(xs, p) == Filter(xs, q)
  {
    if xs != [] {
      FilterCongruent(xs[1..], p, q);
    }
  }

  /** Filtering twice with the same test is filtering once. */
  lemma {:induction false} FilterIdempotent<T>(xs: seq<T>, keep: T -> bool)
    ensures Filter(Filter(xs, keep), keep) == Filter(xs, keep)
  {
    FilterKeepsAll(Filter(xs, keep), keep);
  }

  /** `xs.reduce((sum, x) => sum + f(x), 0)`, over the reals. */
  function Sum<T>(xs: seq<T>, f: T -> real): real
  {
    if xs == [] then 0.0 else f(xs[0]) + Sum(xs[1..], f)
  }

  lemma {:induction false} SumAppend<T>(a: seq<T>, b: seq<T>, f: T -> real)
    ensures Sum(a + b, f) == Sum(a, f) + Sum(b, f)
  {
    if a == [] {
      assert a + b == b;
    } else {
      assert (a + b)[1..] == a[1..] + b;
      SumAppend(a[1..], b, f);
    }
  }

  /** The sum over the accepted elements plus the sum over the rejected ones is the
      sum over all: a filter never loses or double-counts a profit. */
  lemma {:induction false} SumFilterSplit<T>(xs: seq<T>, keep: T -> bool, reject: T -> bool, f: T -> real)
    requires forall x :: reject(x) == !keep(x)
    ensures Sum(Filter(xs, keep), f) + Sum(Filter(xs, reject), f) == Sum(xs, f)
  {
    if xs != [] {
      SumFilterSplit(xs[1..], keep, reject, f);
      var kept := Filter(xs[1..], keep);
      var rejected := Filter(xs[1..], reject);
      if keep(xs[0]) {
        assert Filter(xs, keep) == [xs[0]] + kept;
        assert Sum([xs[0]] + kept, f) == f(xs[0]) + Sum(kept, f) by {
          assert ([xs[0]] + kept)[1..] == kept;
        }
      } else {
        assert Filter(xs, reject) == [xs[0]] + rejected;
        assert Sum([xs[0]] + rejected, f) == f(xs[0]) + Sum(rejected, f) by {
          assert ([xs[0]] + rejected)[1..] == rejected;
        }
      }
    }
  }
}

=== FILE: contact.dfy ===
/** The contact form endpoint (`POST /api/contact`): an ordered ladder of
    checks on the submitted fields, then either a simulated send (no API key
    configured) or a real one whose outcome decides the reply. */
module Contact {
  import opened Optional
  import opened Strings
  import DailySignals

  // ---------------------------------------------------------------- email shape

  /** A character `[^\s@]` accepts. */
  predicate EmailChar(c: char) {
    !IsJsWhitespace(c) && c != '@'
  }

  /** `s` matches `^[^\s@]+@[^\s@]+\.[^\s@]+$` with its '@' at `at` and the
      chosen '.' at `dot`: every other character is a non-space non-'@', and
      the three runs around them are non-empty. */
  ghost predicate EmailShape(s: string, at: int, dot: int) {
    0 < at && at + 1 < dot && dot + 1 < |s|
    && s[at] == '@' && s[dot] == '.'
    && (forall k :: 0 <= k < |s| && k != at ==> EmailChar(s[k]))
  }

  ghost predicate MatchesEmailPattern(s: string) {
    exists at, dot :: EmailShape(s, at, dot)
  }

  /** A '.' with at least one character on each side. */
  predicate HasInnerDot(d: string) {
    |d| >= 3 && '.' in d[1..|d| - 1]
  }

  /** `isValidEmail`: no whitespace, exactly one '@' with something before
      it, and a '.' inside the part after it. */
  predicate IsValidEmail(s: string) {
    var parts := Split(s, '@');
    (forall k :: 0 <= k < |s| ==> !IsJsWhitespace(s[k]))
      && |parts| == 2 && parts[0] != [] && HasInnerDot(parts[1])
  }

  /** A string the check accepts matches the regular expression. */
  lemma ValidEmailHasShape(s: string)
    requires IsValidEmail(s)
    ensures MatchesEmailPattern(s)
  {
    var parts := Split(s, '@');
    JoinSplit(s, '@');
    assert parts == [parts[0]] + parts[1..] && parts[1..] == [parts[1]];
    assert s == parts[0] + "@" + parts[1];
    var at := |parts[0]|;
    var d := parts[1];
    var m :| 0 <= m < |d[1..|d| - 1]| && d[1..|d| - 1][m] == '.';
    var dot := at + 2 + m;
    assert s[dot] == d[1 + m];
    forall k | 0 <= k < |s| && k != at
      ensures EmailChar(s[k])
    {
      if k < at {
        assert s[k] == parts[0][k];
      } else {
        assert s[k] == d[k - at - 1];
      }
    }
    assert EmailShape(s, at, dot);
  }

  /** A string that matches the regular expression passes the check. */
  lemma ShapedEmailIsValid(s: string, at: int, dot: int)
    requires EmailShape(s, at, dot)
    ensures IsValidEmail(s)
  {
    var local, domain := s[..at], s[at + 1..];
    assert '@' !in local by {
      forall k | 0 <= k < |local| ensures local[k] != '@' {
        assert local[k] == s[k];
      }
    }
    assert '@' !in domain by {
      forall k | 0 <= k < |domain| ensures domain[k] != '@' {
        assert domain[k] == s[at + 1 + k];
      }
    }
    assert s == local + ['@'] + domain;
    SplitAtSeparator(local, '@', domain);
    SplitWithoutSeparator(domain, '@');
    assert Split(s, '@') == [local, domain];
    assert domain[1..|domain| - 1][dot - at - 2] == '.';
    forall k | 0 <= k < |s| ensures !IsJsWhitespace(s[k]) {
      if k != at {
        assert EmailChar(s[k]);
      }
    }
  }

  /** The check agrees with the regular expression on every string. */
  lemma IsValidEmailMatchesPattern(s: string)
    ensures IsValidEmail(s) <==> MatchesEmailPattern(s)
  {
    if IsValidEmail(s) {
      ValidEmailHasShape(s);
    }
    if MatchesEmailPattern(s) {
      var at, dot :| EmailShape(s, at, dot);
      ShapedEmailIsValid(s, at, dot);
    }
  }

  /** A plain address passes. */
  lemma PlainAddressIsValid()
    ensures IsValidEmail("a@b.c")
  {
    assert EmailShape("a@b.c", 1, 3);
    ShapedEmailIsValid("a@b.c", 1, 3);
  }

  /** A domain without a dot fails. */
  lemma DotlessDomainIsInvalid()
    ensures !IsValidEmail("a@bc")
  {
    SplitAtSeparator("a", '@', "bc");
    SplitWithoutSeparator("bc", '@');
    assert "a" + ['@'] + "bc" == "a@bc";
  }

  /** A second '@' fails. */
  lemma SecondAtIsInvalid()
    ensures !IsValidEmail("a@b@c.d")
  {
    SplitAtSeparator("a", '@', "b@c.d");
    SplitAtSeparator("b", '@', "c.d");
    SplitWithoutSeparator("c.d", '@');
    assert "a" + ['@'] + "b@c.d" == "a@b@c.d";
    assert "b" + ['@'] + "c.d" == "b@c.d";
  }

  // ---------------------------------------------------------------- the request

  /** A field of the parsed body as JavaScript sees it (absent, `null`, a
      boolean, a number, a string or an object), as the daily endpoint reads
      its documents. */
  type Field = DailySignals.Raw

  /** The destructured fields of the parsed body. */
  datatype ContactForm = ContactForm(name: Field, email: Field, subject: Field, message: Field)

  /** What `request.json()` gives: no JSON at all, the JSON `null`, or a value
      whose four properties are read (a number, string or array body has none
      of them, so all four are absent). */
  datatype Body = NotJson | JsonNull | Parsed(form: ContactForm)

  datatype Reply = Error(status: nat, error: string) | Sent(status: nat, message: string)

  /** The route's answer and whether it handed a message to the mail service. */
  datatype ContactOutcome = ContactOutcome(reply: Reply, sendAttempted: bool)

  /** `!field` is false: the field is truthy. */
  predicate Filled(f: Field) {
    DailySignals.Truthy(f)
  }

  /** `isValidEmail(email)` on a field: only a string can contain the '@' the
      pattern needs (the text of a number, a boolean or a plain object has
      none). */
  predicate EmailAccepted(f: Field) {
    f.Str? && IsValidEmail(f.s)
  }

  /** `message.length < 10`: only a string has a length here; for any other
      value `undefined < 10` is false, so the check lets it through. */
  predicate TooShort(f: Field) {
    f.Str? && |f.s| < MinMessageLength
  }

  const MinMessageLength := 10

  /** The validation ladder: the first failing check's error message. */
  function Validate(form: ContactForm): (r: Option<string>)
    ensures r.None? <==> Filled(form.name) && Filled(form.email) && Filled(form.subject) && Filled(form.message)
                         && EmailAccepted(form.email) && !TooShort(form.message)
    ensures r == Some("Missing required fields") <==>
              !Filled(form.name) || !Filled(form.email) || !Filled(form.subject) || !Filled(form.message)
    ensures r == Some("Missing required fields") || r == Some("Invalid email format")
         || r == Some("Message is too short") || r == None
  {
    if !Filled(form.name) || !Filled(form.email) || !Filled(form.subject) || !Filled(form.message) then
      Some("Missing required fields")
    else if !EmailAccepted(form.email) then
      Some("Invalid email format")
    else if TooShort(form.message) then
      Some("Message is too short")
    else
      None
  }

  /** `POST /api/contact`. `apiKeySet` says whether a mail API key is
      configured and `sendSucceeds` whether the send call returns without
      throwing. A body that is not JSON, or the JSON `null` (whose
      destructuring throws), ends in the outer catch; a message that is not a
      string throws at `message.replace` while the mail is being built, before
      anything is sent, and ends in the inner catch. */
  function Post(body: Body, apiKeySet: bool, sendSucceeds: bool): (r: ContactOutcome)
    ensures r.sendAttempted <==> body.Parsed? && Validate(body.form).None? && apiKeySet && body.form.message.Str?
    ensures r.reply.status == 200 <==>
              body.Parsed? && Validate(body.form).None? && (!apiKeySet || (body.form.message.Str? && sendSucceeds))
    ensures r.reply.status == 400 <==> body.Parsed? && Validate(body.form).Some?
    ensures !body.Parsed? ==> r.reply == Error(500, "Failed to send message. Please try again later.")
    ensures r.reply.status in {200, 400, 500}
  {
    match body
    case NotJson => ContactOutcome(Error(500, "Failed to send message. Please try again later."), false)
    case JsonNull => ContactOutcome(Error(500, "Failed to send message. Please try again later."), false)
    case Parsed(form) =>
      match Validate(form)
      case Some(problem) => ContactOutcome(Error(400, problem), false)
      case None =>
        if !apiKeySet then
          ContactOutcome(Sent(200, "Your message has been sent successfully! (Development mode)"), false)
        else if !form.message.Str? then
          ContactOutcome(Error(500, "Failed to send email. Please check your email configuration."), false)
        else if sendSucceeds then
          ContactOutcome(Sent(200, "Your message has been sent successfully!"), true)
        else
          ContactOutcome(Error(500, "Failed to send email. Please check your email configuration."), true)
  }

  /** A missing field is reported before anything else is looked at, whatever
      the email and the message hold. */
  lemma MissingFieldWins(form: ContactForm, apiKeySet: bool, sendSucceeds: bool)
    requires !Filled(form.name) || !Filled(form.email) || !Filled(form.subject) || !Filled(form.message)
    ensures Post(Parsed(form), apiKeySet, sendSucceeds).reply == Error(400, "Missing required fields")
  {
  }

  /** With every field filled in, a bad email is reported before a short message. */
  lemma EmailCheckedBeforeLength(form: ContactForm, apiKeySet: bool, sendSucceeds: bool)
    requires Filled(form.name) && Filled(form.email) && Filled(form.subject) && Filled(form.message)
    requires !EmailAccepted(form.email)
    ensures Post(Parsed(form), apiKeySet, sendSucceeds).reply == Error(400, "Invalid email format")
  {
  }

  /** The message needs at least ten characters: nine are too short, ten pass. */
  lemma MessageLengthBoundary(name: string, email: string, subject: string, message: string)
    requires name != "" && subject != "" && IsValidEmail(email)
    ensures |message| == 9 ==> Validate(ContactForm(DailySignals.Str(name), DailySignals.Str(email), DailySignals.Str(subject), DailySignals.Str(message)))
                                == Some("Message is too short")
    ensures |message| == 10 ==> Validate(ContactForm(DailySignals.Str(name), DailySignals.Str(email), DailySignals.Str(subject), DailySignals.Str(message))) == None
  {
    assert IsValidEmail(email) ==> email != "";
  }

  /** A truthy message that is not a string has no length to check, so it
      passes validation whatever its value. */
  lemma NonStringMessagePasses(name: string, email: string, subject: string, message: Field)
    requires name != "" && subject != "" && IsValidEmail(email)
    requires Filled(message) && !message.Str?
    ensures Validate(ContactForm(DailySignals.Str(name), DailySignals.Str(email), DailySignals.Str(subject), message)) == None
  {
    assert IsValidEmail(email) ==> email != "";
  }

  /** Such a message is answered as a development-mode success without a key,
      and with a key it fails while the mail is built, before any send. */
  lemma NonStringMessageFailsToSend(form: ContactForm, sendSucceeds: bool)
    requires Validate(form).None? && !form.message.Str?
    ensures Post(Parsed(form), false, sendSucceeds).reply.status == 200
    ensures Post(Parsed(form), true, sendSucceeds)
         == ContactOutcome(Error(500, "Failed to send email. Please check your email configuration."), false)
  {
  }

  /** Without an API key a valid form gets the development-mode success and
      nothing is sent. */
  lemma DevelopmentMode(form: ContactForm, sendSucceeds: bool)
    requires Validate(form).None?
    ensures Post(Parsed(form), false, sendSucceeds)
         == ContactOutcome(Sent(200, "Your message has been sent successfully! (Development mode)"), false)
  {
  }

  /** A send that fails is a 500 that points at the email configuration. */
  lemma SendFailure(form: ContactForm)
    requires Validate(form).None? && form.message.Str?
    ensures Post(Parsed(form), true, false)
         == ContactOutcome(Error(500, "Failed to send email. Please check your email configuration."), true)
  {
  }
}

=== FILE: daily_signals.dfy ===
/** The daily signals endpoint (`GET /api/signals/daily`): loosely typed store
    documents are normalised into display records, and the profits of the
    returned records are summed; when the store fails, three fixed records are
    searched instead. */
module DailySignals {
  import opened Optional
  import opened Strings
  import opened Collections

  /** A document field as JavaScript sees it: absent (`undefined`/`null`), a
      boolean, a finite number, `NaN`, an infinity, a string, or anything else. */
  datatype Raw = Missing | Bool(b: bool) | Num(x: real) | NotANumber | Infinite(negative: bool) | Str(s: string) | Obj

  /** `a ?? b`. */
  function Coalesce(a: Raw, b: Raw): Raw {
    if a.Missing? then b else a
  }

  /** JavaScript truthiness. */
  predicate Truthy(v: Raw) {
    match v
    case Missing => false
    case Bool(b) => b
    case Num(x) => x != 0.0
    case NotANumber => false
    case Infinite(_) => true
    case Str(s) => s != ""
    case Obj => true
  }

  // ---------------------------------------------------------------- parseNumber

  /** The characters `parseNumber` keeps: digits, '.', '+' and '-'. */
  predicate IsNumericChar(c: char) {
    IsDigit(c) || c == '.' || c == '+' || c == '-'
  }

  /** `value.replace(/[^\d.+-]/g, "")`. */
  function CleanNumeric(s: string): (r: string)
    ensures forall i :: 0 <= i < |r| ==> IsNumericChar(r[i])
  {
    Filter(s, IsNumericChar)
  }

  /** The digits after a leading '.', if there is one. */
  function FractionDigits(rest: string): (r: string)
    ensures AllDigits(r)
  {
    if |rest| > 0 && rest[0] == '.' then LeadingDigits(rest[1..]) else []
  }

  /** The value of the digits after the decimal point: each digit counts a
      tenth of the one before it. */
  function FractionValue(digits: string): (r: real)
    requires AllDigits(digits)
    ensures 0.0 <= r < 1.0
    ensures digits == [] ==> r == 0.0
  {
    if digits == [] then 0.0
    else (DigitValue(digits[0]) as real + FractionValue(digits[1..])) / 10.0
  }

  /** The value of a decimal with digits `whole` before the point and
      `fraction` after it. */
  function DecimalValue(whole: string, fraction: string): real
    requires AllDigits(whole) && AllDigits(fraction)
  {
    DigitsValue(whole) as real + FractionValue(fraction)
  }

  /** An unsigned decimal at the front of `body`: digits, then optionally '.'
      and more digits, with at least one digit in all. */
  function UnsignedPrefix(body: string): Option<real> {
    var whole := LeadingDigits(body);
    var fraction := FractionDigits(body[|whole|..]);
    if whole == [] && fraction == [] then None
    else Some(DecimalValue(whole, fraction))
  }

  /** `parseFloat` on a string of digits, dots and signs: an optional sign,
      then the longest unsigned decimal prefix. `None` is `NaN`. (Exponents and
      "Infinity" cannot occur: cleaning removed their letters.) */
  function ParseFloat(s: string): Option<real> {
    var negative := |s| > 0 && s[0] == '-';
    var body := if |s| > 0 && (s[0] == '+' || s[0] == '-') then s[1..] else s;
    match UnsignedPrefix(body)
    case None => None
    case Some(m) => Some(if negative then -m else m)
  }

  /** `parseNumber(value, fallback)`: a finite number as it is, a string by
      cleaning and parsing, and the fallback for everything else. */
  function ParseNumber(v: Raw, fallback: real): real {
    match v
    case Num(x) => x
    case Str(s) =>
      var parsed := ParseFloat(CleanNumeric(s));
      if parsed.Some? then parsed.value else fallback
    case _ => fallback
  }

  /** Non-numbers, non-strings and non-finite numbers give the fallback. */
  lemma ParseNumberFallback(v: Raw, fallback: real)
    requires !v.Num? && !v.Str?
    ensures ParseNumber(v, fallback) == fallback
  {
  }

  /** Characters other than digits, '.', '+' and '-' are ignored. */
  lemma ParseNumberIgnoresNoise(s: string, fallback: real)
    ensures ParseNumber(Str(s), fallback) == ParseNumber(Str(CleanNumeric(s)), fallback)
  {
    FilterIdempotent(s, IsNumericChar);
  }

  lemma {:induction false} LeadingDigitsOfDigits(s: string)
    requires AllDigits(s)
    ensures LeadingDigits(s) == s
  {
    if s != [] {
      LeadingDigitsOfDigits(s[1..]);
    }
  }

  lemma UnsignedPrefixOfDigits(d: string)
    requires d != [] && AllDigits(d)
    ensures UnsignedPrefix(d) == Some(DigitsValue(d) as real)
  {
    LeadingDigitsOfDigits(d);
    assert d[|d|..] == [];
    assert FractionDigits([]) == [];
  }

  /** A non-empty run of digits parses to its value. */
  lemma ParseFloatDigits(d: string)
    requires d != [] && AllDigits(d)
    ensures ParseFloat(d) == Some(DigitsValue(d) as real)
  {
    UnsignedPrefixOfDigits(d);
  }

  /** A sign in front of an unsigned decimal sets the sign of its value. */
  lemma ParseFloatSigned(sign: char, body: string, m: real)
    requires sign == '-' || sign == '+'
    requires UnsignedPrefix(body) == Some(m)
    ensures ParseFloat([sign] + body) == Some(if sign == '-' then -m else m)
  {
    var s := [sign] + body;
    assert s[0] == sign && s[1..] == body;
  }

  /** Cleaning keeps a string made only of kept characters. */
  lemma CleanKeepsNumeric(s: string)
    requires forall i :: 0 <= i < |s| ==> IsNumericChar(s[i])
    ensures CleanNumeric(s) == s
  {
    FilterKeepsAll(s, IsNumericChar);
  }

  /** A rendered natural number, with or without a sign, reads back as itself. */
  lemma ParseNumberReadsDecimal(n: nat, fallback: real)
    ensures ParseNumber(Str(DecimalString(n)), fallback) == n as real
    ensures ParseNumber(Str("-" + DecimalString(n)), fallback) == -(n as real)
    ensures ParseNumber(Str("+" + DecimalString(n)), fallback) == n as real
  {
    var d := DecimalString(n);
    DecimalStringValue(n);
    ParseFloatDigits(d);
    UnsignedPrefixOfDigits(d);
    ParseFloatSigned('-', d, n as real);
    ParseFloatSigned('+', d, n as real);
    ReadsSigned(d, "", fallback);
    ReadsSigned(d, "-", fallback);
    ReadsSigned(d, "+", fallback);
    assert "" + d == d;
  }

  /** A run of digits behind an optional sign is left alone by cleaning. */
  lemma ReadsSigned(d: string, sign: string, fallback: real)
    requires AllDigits(d)
    requires sign == "" || sign == "-" || sign == "+"
    ensures ParseNumber(Str(sign + d), fallback) == ParseFloat(sign + d).OrElse(fallback)
  {
    var s := sign + d;
    forall i | 0 <= i < |s|
      ensures IsNumericChar(s[i])
    {
      if i >= |sign| {
        assert s[i] == d[i - |sign|];
      }
    }
    CleanKeepsNumeric(s);
    ParseNumberString(s, s, fallback);
  }

  /** A string reads as `parseFloat` of its cleaned form, or the fallback
      when that is `NaN`. */
  lemma ParseNumberString(s: string, cleaned: string, fallback: real)
    requires CleanNumeric(s) == cleaned
    ensures ParseNumber(Str(s), fallback) == ParseFloat(cleaned).OrElse(fallback)
  {
  }

  /** Cleaning drops a non-numeric character in front of a numeric one and
      another after it. */
  lemma {:induction false} CleanDropsTwo(a: char, b: char, c: char, rest: string)
    requires !IsNumericChar(a) && IsNumericChar(b) && !IsNumericChar(c)
    requires forall i :: 0 <= i < |rest| ==> IsNumericChar(rest[i])
    ensures CleanNumeric([a, b, c] + rest) == [b] + rest
  {
    var s := [a, b, c] + rest;
    assert s[0] == a && s[1..] == [b, c] + rest;
    assert s[1..][0] == b && s[1..][1..] == [c] + rest;
    assert s[1..][1..][0] == c && s[1..][1..][1..] == rest;
    FilterKeepsAll(rest, IsNumericChar);
    assert Filter(s[1..][1..], IsNumericChar) == rest;
    assert Filter(s[1..], IsNumericChar) == [b] + rest;
  }

  lemma CleanCurrency(s: string)
    requires s == "$1,234.5"
    ensures CleanNumeric(s) == "1234.5"
  {
    assert s == ['$', '1', ','] + "234.5";
    CleanDropsTwo('$', '1', ',', "234.5");
  }

  /** The digits behind a point are the fraction. */
  lemma FractionDigitsAfterPoint(point: string, fraction: string)
    requires AllDigits(fraction)
    requires point == ['.'] + fraction
    ensures FractionDigits(point) == fraction
  {
    assert point[1..] == fraction;
    LeadingDigitsOfDigits(fraction);
  }

  /** An unsigned decimal with a fraction reads as the whole part plus the
      fraction. */
  lemma UnsignedPrefixFraction(whole: string, point: string, fraction: string)
    requires whole != [] && AllDigits(whole) && AllDigits(fraction)
    requires point == ['.'] + fraction
    ensures UnsignedPrefix(whole + point) == Some(DecimalValue(whole, fraction))
  {
    var body := whole + point;
    LeadingDigitsStopsAt(whole, point);
    assert LeadingDigits(body) == whole;
    assert body[|whole|..] == point;
    FractionDigitsAfterPoint(point, fraction);
  }

  /** Digits, a point and digits read as the whole part plus the fraction. */
  lemma ParseFloatFraction(whole: string, fraction: string)
    requires whole != [] && AllDigits(whole) && AllDigits(fraction)
    ensures ParseFloat(whole + ['.'] + fraction) == Some(DecimalValue(whole, fraction))
  {
    var point := ['.'] + fraction;
    var body := whole + point;
    assert whole + ['.'] + fraction == body;
    assert body[0] == whole[0];
    assert !(body[0] == '+' || body[0] == '-');
    UnsignedPrefixFraction(whole, point, fraction);
  }

  lemma DigitsOf1234()
    ensures DigitsValue("1234") == 1234
  {
    assert "1234"[..3] == "123";
    assert "123"[..2] == "12";
    assert "12"[..1] == "1";
    assert "1"[..0] == "";
  }

  lemma FractionOf5()
    ensures FractionValue("5") == 0.5
  {
    assert "5"[..0] == "";
  }

  lemma ParseFloatDecimal()
    ensures ParseFloat("1234.5") == Some(1234.5)
  {
    DigitsOf1234();
    FractionOf5();
    ParseFloatFraction("1234", "5");
    assert "1234" + ['.'] + "5" == "1234.5";
  }

  /** Currency symbols and thousands separators are dropped. */
  lemma ParseNumberCurrency()
    ensures ParseNumber(Str("$1,234.5"), 0.0) == 1234.5
  {
    CleanCurrency("$1,234.5");
    ParseFloatDecimal();
    ParseNumberString("$1,234.5", "1234.5", 0.0);
  }

  /** The digits before a non-digit are the leading digits. */
  lemma {:induction false} LeadingDigitsStopsAt(d: string, rest: string)
    requires AllDigits(d) && rest != [] && !IsDigit(rest[0])
    ensures LeadingDigits(d + rest) == d
  {
    if d == [] {
      assert d + rest == rest;
    } else {
      assert (d + rest)[1..] == d[1..] + rest;
      LeadingDigitsStopsAt(d[1..], rest);
    }
  }

  lemma CleanExponent()
    ensures CleanNumeric("1e5") == "15"
  {
    assert "1e5"[1..] == "e5";
    assert "e5"[1..] == "5";
    assert "5"[1..] == [];
    assert Filter("e5", IsNumericChar) == "5";
  }

  lemma ParseFloatFifteen()
    ensures ParseFloat("15") == Some(15.0)
  {
    assert DigitsValue("15") == 15 by {
      assert "15"[..1] == "1";
      assert "1"[..0] == "";
    }
    ParseFloatDigits("15");
  }

  /** The 'e' of an exponent is dropped too, so "1e5" reads as 15. */
  lemma ParseNumberExponent()
    ensures ParseNumber(Str("1e5"), 0.0) == 15.0
  {
    CleanExponent();
    ParseFloatFifteen();
    ParseNumberString("1e5", "15", 0.0);
  }

  lemma CleanNoDigits()
    ensures CleanNumeric("abc") == ""
    ensures CleanNumeric("--") == "--"
  {
    assert "abc"[1..] == "bc";
    assert "bc"[1..] == "c";
    assert "c"[1..] == [];
    assert Filter("c", IsNumericChar) == [];
    assert Filter("bc", IsNumericChar) == [];
    FilterKeepsAll("--", IsNumericChar);
  }

  lemma ParseFloatSignsOnly()
    ensures ParseFloat("--") == None
    ensures ParseFloat("") == None
  {
    assert "--"[1..] == "-";
    assert "-"[1..] == [];
    assert LeadingDigits("-") == [];
    assert FractionDigits("-") == [];
  }

  /** Text with no digits is not a number and gives the fallback. */
  lemma ParseNumberNoDigits(fallback: real)
    ensures ParseNumber(Str("abc"), fallback) == fallback
    ensures ParseNumber(Str("--"), fallback) == fallback
    ensures ParseNumber(Str(""), fallback) == fallback
  {
    CleanNoDigits();
    ParseFloatSignsOnly();
    ParseNumberString("abc", "", fallback);
    ParseNumberString("--", "--", fallback);
    ParseNumberString("", "", fallback);
  }

  // ---------------------------------------------------------------- normalisation

  /** The trade direction: "buy" when the lower-cased raw type mentions "buy",
      else "sell" when it mentions "sell", else "buy". */
  function NormalizeType(raw: Option<string>): (r: string)
    ensures r == "buy" || r == "sell"
    ensures r == "sell" <==> raw.Some? && !Includes(Lower(raw.value), "buy") && Includes(Lower(raw.value), "sell")
  {
    var lowered := Lower(raw.OrElse("buy"));
    if Includes(lowered, "buy") then "buy"
    else if Includes(lowered, "sell") then "sell"
    else "buy"
  }

  /** A stored daily document; any field may be absent. `objectId` is the text
      of `_id` and `createdAtIso` that of `createdAt.toISOString()`. */
  datatype DailyDocument = DailyDocument(
    objectId: Option<string>,
    id: Option<string>,
    symbol: Option<string>,
    pair: Option<string>,
    rawType: Option<string>,
    entry: Raw,
    entryPrice: Raw,
    stopLoss: Raw,
    sl: Raw,
    exit: Raw,
    target: Raw,
    tp: Raw,
    time: Option<string>,
    date: Option<string>,
    createdAtIso: Option<string>,
    status: Option<string>,
    lot: Raw,
    volume: Raw,
    profit: Raw,
    premium: Raw,
    isPremium: Raw)

  /** A daily signal as the endpoint returns it. */
  datatype DailySignal = DailySignal(
    id: string,
    pair: string,
    signalType: string,
    entryPrice: real,
    stopLoss: real,
    target: real,
    time: string,
    status: string,
    volume: real,
    profit: real,
    premium: string)

  /** The tier tag: "premium" when `premium ?? isPremium` is truthy. */
  function PremiumTag(doc: DailyDocument): (r: string)
    ensures r == "premium" || r == "free"
  {
    if Truthy(Coalesce(doc.premium, doc.isPremium)) then "premium" else "free"
  }

  /** One document as a display record; `now` is the current time as ISO text,
      the last resort for `time`. */
  function ToDailySignal(doc: DailyDocument, now: string): DailySignal {
    DailySignal(
      doc.objectId.OrElse(doc.id.OrElse("")),
      Trim(doc.symbol.OrElse(doc.pair.OrElse(""))),
      NormalizeType(doc.rawType),
      ParseNumber(Coalesce(doc.entry, doc.entryPrice), 0.0),
      ParseNumber(Coalesce(doc.stopLoss, doc.sl), 0.0),
      ParseNumber(Coalesce(doc.exit, Coalesce(doc.target, doc.tp)), 0.0),
      doc.time.OrElse(doc.date.OrElse(doc.createdAtIso.OrElse(now))),
      doc.status.OrElse("Active"),
      ParseNumber(Coalesce(doc.lot, doc.volume), 0.1),
      ParseNumber(doc.profit, 0.0),
      PremiumTag(doc))
  }

  const EmptyDailyDocument := DailyDocument(None, None, None, None, None, Missing, Missing, Missing, Missing,
    Missing, Missing, Missing, None, None, None, None, Missing, Missing, Missing, Missing, Missing)

  /** The defaults: an empty document is an active, free buy with zero prices
      and profit, volume 0.1, and the current time. */
  lemma EmptyDailyDocumentDefaults(now: string)
    ensures ToDailySignal(EmptyDailyDocument, now)
         == DailySignal("", "", "buy", 0.0, 0.0, 0.0, now, "Active", 0.1, 0.0, "free")
  {
    assert Trim("") == "";
    assert Includes("buy", "buy");
  }

  /** Field precedence and per-field defaults: `entry` before `entryPrice`,
      `stopLoss` before `sl`, `exit` before `target` before `tp`, `lot` before
      `volume`, `symbol` before `pair`, `time` before `date` before the
      creation time before now; status "Active" when absent; and every
      record's type is buy or sell. */
  lemma DailyFieldPrecedence(doc: DailyDocument, now: string)
    ensures !doc.exit.Missing? ==> ToDailySignal(doc, now).target == ParseNumber(doc.exit, 0.0)
    ensures doc.exit.Missing? && !doc.target.Missing? ==> ToDailySignal(doc, now).target == ParseNumber(doc.target, 0.0)
    ensures doc.exit.Missing? && doc.target.Missing? ==> ToDailySignal(doc, now).target == ParseNumber(doc.tp, 0.0)
    ensures !doc.lot.Missing? ==> ToDailySignal(doc, now).volume == ParseNumber(doc.lot, 0.1)
    ensures doc.lot.Missing? ==> ToDailySignal(doc, now).volume == ParseNumber(doc.volume, 0.1)
    ensures doc.symbol.Some? ==> ToDailySignal(doc, now).pair == Trim(doc.symbol.value)
    ensures doc.symbol.None? ==> ToDailySignal(doc, now).pair == Trim(doc.pair.OrElse(""))
    ensures !doc.entry.Missing? ==> ToDailySignal(doc, now).entryPrice == ParseNumber(doc.entry, 0.0)
    ensures doc.entry.Missing? ==> ToDailySignal(doc, now).entryPrice == ParseNumber(doc.entryPrice, 0.0)
    ensures !doc.stopLoss.Missing? ==> ToDailySignal(doc, now).stopLoss == ParseNumber(doc.stopLoss, 0.0)
    ensures doc.stopLoss.Missing? ==> ToDailySignal(doc, now).stopLoss == ParseNumber(doc.sl, 0.0)
    ensures doc.status.Some? ==> ToDailySignal(doc, now).status == doc.status.value
    ensures doc.status.None? ==> ToDailySignal(doc, now).status == "Active"
    ensures ToDailySignal(doc, now).profit == ParseNumber(doc.profit, 0.0)
    ensures doc.objectId.None? ==> ToDailySignal(doc, now).id == doc.id.OrElse("")
    ensures doc.time.None? && doc.date.None? ==> ToDailySignal(doc, now).time == doc.createdAtIso.OrElse(now)
    ensures ToDailySignal(doc, now).signalType in {"buy", "sell"}
  {
  }

  /** The tier is "premium" exactly when `premium` is truthy, or `premium` is
      absent and `isPremium` is truthy: a present but falsy `premium` hides `isPremium`. */
  lemma PremiumTagIff(doc: DailyDocument)
    ensures PremiumTag(doc) == "premium"
        <==> Truthy(doc.premium) || (doc.premium.Missing? && Truthy(doc.isPremium))
  {
  }

  // ---------------------------------------------------------------- responses

  function Profit(s: DailySignal): real { s.profit }

  /** `signals.reduce((sum, s) => sum + s.profit, 0)`. */
  function TotalProfit(signals: seq<DailySignal>): real {
    Sum(signals, Profit)
  }

  datatype DailyResponse = DailyResponse(signals: seq<DailySignal>, totalProfit: real)

  /** The live path: the documents the store returned, normalised, and their profit. */
  function LiveDaily(docs: seq<DailyDocument>, now: string): (r: DailyResponse)
    ensures |r.signals| == |docs|
    ensures forall i :: 0 <= i < |docs| ==> r.signals[i] == ToDailySignal(docs[i], now)
    ensures r.totalProfit == TotalProfit(r.signals)
  {
    var signals := seq(|docs|, i requires 0 <= i < |docs| => ToDailySignal(docs[i], now));
    DailyResponse(signals, TotalProfit(signals))
  }

  /** The three fixed records served when the store cannot be reached. */
  const MockDailySignals: seq<DailySignal> := [
      DailySignal("1", "EUR/USD", "buy", 1.1654, 1.1634, 1.1684, "08/30/2025, 09:15 AM", "Successful", 0.1, 28.5, "free"),
      DailySignal("2", "GBP/USD", "sell", 1.3485, 1.3505, 1.3455, "08/30/2025, 11:20 AM", "Successful", 0.08, 24.2, "premium"),
      DailySignal("3", "USD/JPY", "buy", 153.2, 152.8, 153.8, "08/30/2025, 02:30 PM", "Active", 0.12, 0.0, "free")
    ]

  predicate PairMatches(s: DailySignal, search: string) {
    IncludesIgnoreCase(s.pair, search)
  }

  /** The fallback path: the fixed records, searched when the search is non-empty. */
  function FallbackDaily(search: string): (r: DailyResponse)
    ensures r.totalProfit == TotalProfit(r.signals)
  {
    var filtered := if search != "" then Filter(MockDailySignals, s => PairMatches(s, search)) else MockDailySignals;
    DailyResponse(filtered, TotalProfit(filtered))
  }

  /** `GET /api/signals/daily`: `None` stands for a store that could not be
      reached or queried; `Some(docs)` for the documents its query returned. */
  function GetDaily(store: Option<seq<DailyDocument>>, search: string, now: string): (r: DailyResponse)
    ensures r.totalProfit == TotalProfit(r.signals)
  {
    match store
    case None => FallbackDaily(search)
    case Some(docs) => LiveDaily(docs, now)
  }

  /** The `if (search)` guard changes nothing: the empty search matches every
      pair, so the fallback is always the order-preserving subsequence of
      matching records, and an empty search returns all three. */
  lemma FallbackIsSearch(search: string)
    ensures FallbackDaily(search).signals == Filter(MockDailySignals, s => PairMatches(s, search))
    ensures search == "" ==> FallbackDaily(search).signals == MockDailySignals
  {
    if search == "" {
      forall s | s in MockDailySignals ensures PairMatches(s, search) {
        IncludesEmpty(Lower(s.pair));
      }
      FilterKeepsAll(MockDailySignals, s => PairMatches(s, search));
    }
  }

  /** The fallback records' profits add up to 52.7. */
  lemma FallbackTotalProfit()
    ensures FallbackDaily("").totalProfit == 52.7
  {
  }

  /** A search and its complement split the fallback's total profit between them. */
  lemma FallbackProfitSplits(search: string)
    ensures TotalProfit(Filter(MockDailySignals, s => PairMatches(s, search)))
          + TotalProfit(Filter(MockDailySignals, s => !PairMatches(s, search)))
         == TotalProfit(MockDailySignals)
  {
    SumFilterSplit(MockDailySignals, s => PairMatches(s, search), s => !PairMatches(s, search), Profit);
  }
}

=== FILE: daily_table.dfy ===
/** The display decisions of the daily signals table: decimals, the profit
    sign, the colour of profit, status and type, and the Farsi status label. */
module DailyTable {
  import opened Strings
  import opened TableView
  import opened DailySignals

  /** `formatPrice`: the number of decimals passed to `toFixed`. */
  function PriceDecimals(price: real): (d: nat)
    ensures d == 5 <==> price < 10.0
    ensures d == 2 <==> price >= 10.0
  {
    if price < 10.0 then 5 else 2
  }

  /** `formatProfit`: the sign put in front of the number. */
  function ProfitSign(profit: real): (s: string)
    ensures s == "+" <==> profit >= 0.0
    ensures s == "" <==> profit < 0.0
  {
    if profit >= 0.0 then "+" else ""
  }

  /** `getProfitColor`: gains green, losses red, zero gray. */
  function ProfitTone(profit: real): (t: Tone)
    ensures t == Green <==> profit > 0.0
    ensures t == Red <==> profit < 0.0
    ensures t == Gray <==> profit == 0.0
  {
    if profit > 0.0 then Green else if profit < 0.0 then Red else Gray
  }

  /** `getStatusColor`: the lower-cased status picks the colour. */
  function StatusTone(status: string): (t: Tone)
    ensures t == Green <==> Lower(status) == "successful"
    ensures t == Red <==> Lower(status) == "unsuccessful"
    ensures t == Blue <==> Lower(status) == "active"
    ensures t == Gray <==> Lower(status) != "successful" && Lower(status) != "unsuccessful" && Lower(status) != "active"
  {
    var l := Lower(status);
    if l == "successful" then Green
    else if l == "unsuccessful" then Red
    else if l == "active" then Blue
    else Gray
  }

  /** `getTypeColor`: green exactly for a type that lower-cases to "buy". */
  function TypeTone(signalType: string): (t: Tone)
    ensures t == Green <==> Lower(signalType) == "buy"
    ensures t == Red <==> Lower(signalType) != "buy"
  {
    if Lower(signalType) == "buy" then Green else Red
  }

  /** The status badge text: in Farsi the three statuses written exactly
      "Successful", "Unsuccessful" and "Active" are translated; every other
      text, and every text in English, is shown as it is. */
  function StatusLabel(language: Language, status: string): (r: string)
    ensures language == En ==> r == status
    ensures status != "Successful" && status != "Unsuccessful" && status != "Active" ==> r == status
    ensures language == Fa && status == "Successful" ==> r == "\U{0645}\U{0648}\U{0641}\U{0642}"
    ensures language == Fa && status == "Unsuccessful" ==> r == "\U{0646}\U{0627}\U{0645}\U{0648}\U{0641}\U{0642}"
    ensures language == Fa && status == "Active" ==> r == "\U{0641}\U{0639}\U{0627}\U{0644}"
  {
    if language == Fa then
      if status == "Successful" then "\U{0645}\U{0648}\U{0641}\U{0642}"
      else if status == "Unsuccessful" then "\U{0646}\U{0627}\U{0645}\U{0648}\U{0641}\U{0642}"
      else if status == "Active" then "\U{0641}\U{0639}\U{0627}\U{0644}"
      else status
    else status
  }

  /** A break-even trade is shown as "+0.00" but in gray. */
  lemma ZeroProfitIsPlusButGray()
    ensures ProfitSign(0.0) == "+" && ProfitTone(0.0) == Gray
  {
  }

  /** The status colour ignores case. */
  lemma StatusToneIgnoresCase(status: string)
    ensures StatusTone(status) == StatusTone(Lower(status))
  {
    LowerIdempotent(status);
  }

  /** The Farsi label does not: a lower-case "successful" is coloured green but
      left untranslated. */
  lemma LabelIsCaseSensitive(status: string)
    requires status == "successful"
    ensures StatusTone(status) == Green
    ensures StatusLabel(Fa, status) == status
  {
    assert Lower(status) == status;
  }

  /** Every record the daily endpoint builds has a normalised type, so the
      type badge is green exactly for buys; a document without a status is
      shown blue as "Active". */
  lemma DailyRecordTones(doc: DailyDocument, now: string)
    ensures TypeTone(ToDailySignal(doc, now).signalType) == Green <==> ToDailySignal(doc, now).signalType == "buy"
    ensures doc.status.None? ==> StatusTone(ToDailySignal(doc, now).status) == Blue
  {
    var t := ToDailySignal(doc, now).signalType;
    assert t == "buy" || t == "sell";
    assert Lower("buy") == "buy";
    assert Lower("sell") == "sell";
    assert Lower("Active") == "active";
  }
}

=== FILE: monthly_signals.dfy ===
/** The monthly signals endpoint (`GET /api/signals/monthly`): a fixed list of
    ten closed trades, searched by pair, with the count and the summed profit
    of what is returned. */
module MonthlySignals {
  import opened Strings
  import opened Collections

  datatype Side = Buy | Sell
  datatype TradeStatus = Successful | Unsuccessful
  datatype Tier = Free | Premium

  /** A closed trade as the endpoint returns it. */
  datatype MonthlySignal = MonthlySignal(
    id: string,
    pair: string,
    side: Side,
    entryPrice: real,
    stopLoss: real,
    target: real,
    time: string,
    status: TradeStatus,
    volume: real,
    profit: real,
    tier: Tier)

  datatype MonthlyResponse = MonthlyResponse(signals: seq<MonthlySignal>, totalProfit: real, total: nat)

  /** The ten fixed records, newest first. */
  const MonthlyRecords: seq<MonthlySignal> := [
      MonthlySignal("1", "EUR/USD", Sell, 1.1694, 1.1718, 1.1687, "08/29/2025, 11:47 PM", Successful, 0.1, 7.5, Free),
      MonthlySignal("2", "USD/CAD", Buy, 1.3735, 1.3708, 1.3734, "08/29/2025, 07:49 PM", Unsuccessful, 0.01, -0.07, Free),
      MonthlySignal("3", "USD/CAD", Sell, 1.3733, 1.3761, 1.3735, "08/29/2025, 07:42 PM", Unsuccessful, 0.02, -0.2, Free),
      MonthlySignal("4", "GBP/USD", Buy, 1.3514, 1.3487, 1.3503, "08/29/2025, 07:36 PM", Unsuccessful, 0.05, -5.1, Free),
      MonthlySignal("5", "EUR/USD", Sell, 1.1633, 1.1656, 1.1651, "08/29/2025, 03:32 PM", Unsuccessful, 0.1, -18.7, Free),
      MonthlySignal("6", "EUR/USD", Sell, 1.1683, 1.1706, 1.1651, "08/29/2025, 03:32 PM", Successful, 0.11, 34.65, Free),
      MonthlySignal("7", "GBP/USD", Sell, 1.3522, 1.3549, 1.3488, "08/29/2025, 10:20 AM", Successful, 0.11, 37.73, Free),
      MonthlySignal("8", "NZD/CHF", Sell, 0.4819, 0.4828, 1.3488, "08/29/2025, 10:20 AM", Unsuccessful, 0.1, -21.9, Free),
      MonthlySignal("9", "AUD/USD", Buy, 0.6625, 0.6605, 0.6645, "08/28/2025, 02:15 PM", Successful, 0.08, 15.2, Free),
      MonthlySignal("10", "USD/JPY", Sell, 154.5, 154.8, 154.2, "08/28/2025, 09:30 AM", Successful, 0.05, 12.8, Premium)
    ]

  predicate PairMatches(s: MonthlySignal, search: string) {
    IncludesIgnoreCase(s.pair, search)
  }

  function Profit(s: MonthlySignal): real { s.profit }

  /** `signals.reduce((sum, s) => sum + s.profit, 0)`. */
  function TotalProfit(signals: seq<MonthlySignal>): real {
    Sum(signals, Profit)
  }

  /** The `if (search)` step: every record when the search is empty,
      otherwise the records whose pair contains it ignoring case. */
  function Search(xs: seq<MonthlySignal>, search: string): (r: seq<MonthlySignal>)
    ensures |r| <= |xs|
  {
    if search != "" then Filter(xs, s => PairMatches(s, search)) else xs
  }

  /** `GET /api/signals/monthly?search=…`: the searched records with their
      count and their summed profit. */
  function GetMonthly(search: string): (r: MonthlyResponse)
    ensures r.total == |r.signals| <= |MonthlyRecords|
    ensures r.totalProfit == TotalProfit(r.signals)
  {
    var filtered := Search(MonthlyRecords, search);
    MonthlyResponse(filtered, TotalProfit(filtered), |filtered|)
  }

  /** An empty search returns the ten records in their listed order. */
  lemma EmptySearchReturnsAll()
    ensures GetMonthly("").signals == MonthlyRecords
    ensures GetMonthly("").total == 10
  {
  }

  /** Any search, the empty one included, returns the order-preserving
      subsequence of records whose pair contains it; so each returned record is
      a listed record that matches, and every matching record is returned. */
  lemma SearchIsFilter(xs: seq<MonthlySignal>, search: string)
    ensures Search(xs, search) == Filter(xs, s => PairMatches(s, search))
    ensures forall s :: s in Search(xs, search) <==> s in xs && PairMatches(s, search)
  {
    if search == "" {
      forall s | s in xs ensures PairMatches(s, search) {
        IncludesEmpty(Lower(s.pair));
      }
      FilterKeepsAll(xs, s => PairMatches(s, search));
    }
    FilterMembers(xs, s => PairMatches(s, search));
  }

  /** A search and its complement split the profit of a list between them. */
  lemma SearchSplitsProfit(xs: seq<MonthlySignal>, search: string)
    ensures TotalProfit(Search(xs, search)) + TotalProfit(Filter(xs, s => !PairMatches(s, search)))
         == TotalProfit(xs)
  {
    SearchIsFilter(xs, search);
    SumFilterSplit(xs, s => PairMatches(s, search), s => !PairMatches(s, search), Profit);
  }

  /** In the fixed records a trade is unsuccessful exactly when it lost money. */
  lemma UnsuccessfulIffLoss()
    ensures forall i :: 0 <= i < |MonthlyRecords| ==>
              (MonthlyRecords[i].status == Unsuccessful <==> MonthlyRecords[i].profit < 0.0)
  {
  }

  /** The ten records' profits add up to 61.91. */
  lemma TotalOfAllRecords()
    ensures GetMonthly("").totalProfit == 61.91
  {
  }
}

=== FILE: monthly_table.dfy ===
/** The display decisions of the monthly signals table: colours and texts for
    status, type and profit. Texts come from the translation function, with a
    Farsi text after `||`. */
module MonthlyTable {
  import opened TableView
  import opened Translation
  import opened MonthlySignals
  import DailyTable

  /** `a || b` on two strings: `a` unless it is empty. */
  function OrElseText(a: string, b: string): (r: string)
    ensures a != "" ==> r == a
    ensures a == "" ==> r == b
  {
    if a != "" then a else b
  }

  /** `getStatusColor`. */
  function StatusTone(status: TradeStatus): (t: Tone)
    ensures t == Green <==> status == Successful
    ensures t == Red <==> status.Unsuccessful?
  {
    if status == Successful then Green else Red
  }

  /** `getStatusText`. */
  function StatusText(translations: Json, status: TradeStatus): string {
    if status == Successful then OrElseText(T(translations, "successful"), "\U{0645}\U{0648}\U{0641}\U{0642}")
    else OrElseText(T(translations, "unsuccessful"), "\U{0646}\U{0627}\U{0645}\U{0648}\U{0641}\U{0642}")
  }

  /** `getTypeColor`. */
  function TypeTone(side: Side): (t: Tone)
    ensures t == Green <==> side == Buy
    ensures t == Red <==> side.Sell?
  {
    if side == Buy then Green else Red
  }

  /** `getTypeText`. */
  function TypeText(translations: Json, side: Side): string {
    if side == Buy then OrElseText(T(translations, "buy"), "\U{062E}\U{0631}\U{06CC}\U{062F}")
    else OrElseText(T(translations, "sell"), "\U{0641}\U{0631}\U{0648}\U{0634}")
  }

  /** `getProfitColor`: green for a gain or break-even, red for a loss. */
  function ProfitTone(profit: real): (t: Tone)
    ensures t == Green <==> profit >= 0.0
    ensures t == Red <==> profit < 0.0
  {
    if profit >= 0.0 then Green else Red
  }

  /** At zero profit the two tables disagree: green here, gray in the daily table. */
  lemma ZeroProfitTonesDiffer()
    ensures ProfitTone(0.0) == Green
    ensures DailyTable.ProfitTone(0.0) == Gray
  {
  }

  /** On the fixed monthly records the status badge and the profit have the
      same colour. */
  lemma StatusToneMatchesProfitTone()
    ensures forall i :: 0 <= i < |MonthlyRecords| ==>
              StatusTone(MonthlyRecords[i].status) == ProfitTone(MonthlyRecords[i].profit)
  {
    UnsuccessfulIffLoss();
  }

  /** `t(key) || text` is never empty when the key and the text are not. */
  lemma TranslatedOrElseNeverEmpty(translations: Json, key: string, text: string)
    requires key != "" && text != ""
    ensures OrElseText(T(translations, key), text) != ""
  {
  }

  /** The status and type texts are the translated key or, when the
      translation is the empty string, the Farsi text; they are never empty. */
  lemma TextsAreNeverEmpty(translations: Json, status: TradeStatus, side: Side)
    ensures StatusText(translations, status) != ""
    ensures TypeText(translations, side) != ""
  {
    TranslatedOrElseNeverEmpty(translations, "successful", "\U{0645}\U{0648}\U{0641}\U{0642}");
    TranslatedOrElseNeverEmpty(translations, "unsuccessful", "\U{0646}\U{0627}\U{0645}\U{0648}\U{0641}\U{0642}");
    TranslatedOrElseNeverEmpty(translations, "buy", "\U{062E}\U{0631}\U{06CC}\U{062F}");
    TranslatedOrElseNeverEmpty(translations, "sell", "\U{0641}\U{0631}\U{0648}\U{0634}");
  }

  /** Before a translation file loads the texts are the English keys. */
  lemma UntranslatedTextsAreKeys(status: TradeStatus, side: Side)
    ensures StatusText(NoTranslations, status) == (if status == Successful then "successful" else "unsuccessful")
    ensures TypeText(NoTranslations, side) == (if side == Buy then "buy" else "sell")
  {
    NothingLoadedShowsKeys("successful");
    NothingLoadedShowsKeys("unsuccessful");
    NothingLoadedShowsKeys("buy");
    NothingLoadedShowsKeys("sell");
  }
}

=== FILE: optional.dfy ===
/** The nullable values of the route handlers: `undefined`/`null` is `None`. */
module Optional {

  datatype Option<+T> = None | Some(value: T) {

    /** The JavaScript `??` operator: this value unless it is nullish. */
    function OrElse(default: T): T {
      match this
      case Some(v) => v
      case None => default
    }
  }
}

=== FILE: signal_data.dfy ===
/** The paginated signals endpoint (`GET /api/signals/data`): the in-memory
    search / type filter / sort / page pipeline of the mock fallback, and the
    transformation of one stored trade document into a display signal. */
module SignalData {
  import opened Optional
  import opened Strings
  import opened Collections

  /** A signal as the endpoint returns it. `success`, `profit` and `volume` are
      optional: the fixed sample records leave `profit` and `volume` (and some
      of them `success`) out, the store transformation always sets them. */
  datatype Signal = Signal(
    id: string,
    pair: string,
    signalType: string,
    price: real,
    takeProfit: seq<real>,
    stopLoss: real,
    timestamp: string,
    success: Option<bool>,
    isPremium: bool,
    profit: Option<real>,
    volume: Option<real>)

  datatype SignalsResponse = SignalsResponse(signals: seq<Signal>, total: nat)

  /** The twelve hand-written records served when the store is unavailable. */
  const MockSignals: seq<Signal> := [
      Signal("1", "EUR/USD", "buy", 1.0825, [1.0845, 1.0865, 1.0885], 1.0805, "Today - 10:30", Some(true), false, None, None),
      Signal("2", "GBP/JPY", "sell", 168.45, [168.25, 168.05], 168.65, "Today - 08:15", Some(false), false, None, None),
      Signal("3", "XAU/USD", "buy", 2352.0, [2360.0, 2370.0, 2380.0], 2340.0, "Yesterday - 15:45", None, true, None, None),
      Signal("4", "USD/JPY", "buy", 154.5, [154.8, 155.1], 154.2, "Yesterday - 12:20", Some(true), false, None, None),
      Signal("5", "EUR/GBP", "sell", 0.855, [0.853, 0.851], 0.857, "Yesterday - 09:45", Some(true), false, None, None),
      Signal("6", "AUD/USD", "buy", 0.6625, [0.6645, 0.6665], 0.6605, "2 days ago - 14:30", None, true, None, None),
      Signal("7", "USD/CAD", "sell", 1.365, [1.363, 1.361, 1.359], 1.367, "2 days ago - 11:15", Some(false), false, None, None),
      Signal("8", "NZD/USD", "buy", 0.5985, [0.6005, 0.6025], 0.5965, "3 days ago - 16:40", Some(true), false, None, None),
      Signal("9", "GBP/USD", "sell", 1.2485, [1.2465, 1.2445, 1.2425], 1.2505, "3 days ago - 13:20", Some(true), false, None, None),
      Signal("10", "USD/CHF", "buy", 0.9045, [0.9065, 0.9085], 0.9025, "4 days ago - 09:15", Some(true), false, None, None),
      Signal("11", "EUR/JPY", "sell", 164.75, [164.55, 164.35, 164.15], 164.95, "4 days ago - 14:50", Some(false), false, None, None),
      Signal("12", "CAD/JPY", "buy", 113.25, [113.45, 113.65], 113.05, "5 days ago - 11:30", None, true, None, None)
    ]

  // ---------------------------------------------------------------- search and type filter

  /** The filter test: the pair contains the search text ignoring case, and the
      type is the requested one unless "all" was requested. */
  predicate MatchesQuery(s: Signal, search: string, typeFilter: string) {
    IncludesIgnoreCase(s.pair, search) && (typeFilter == "all" || s.signalType == typeFilter)
  }

  function FilterSignals(xs: seq<Signal>, search: string, typeFilter: string): seq<Signal> {
    Filter(xs, s => MatchesQuery(s, search, typeFilter))
  }

  // ---------------------------------------------------------------- sorting

  /** The number `parseInt(id)` reads from an id: the value of its leading
      run of decimal digits. This agrees with `parseInt` on the ids that reach
      it, "1" to "12" (`MockIdsAreNumbered`); an id without leading digits
      reads as 0 here where `parseInt` gives NaN, and a sign or leading blanks
      are not read. */
  function IdNumber(id: string): nat {
    DigitsValue(LeadingDigits(id))
  }

  /** The three comparators: by pair, by id descending ("newest"), by id ascending. */
  datatype SortKey = ByPair | NewestFirst | OldestFirst

  /** The `sort` query parameter: "pair", "newest", and anything else means oldest first. */
  function SortKeyOf(sort: string): SortKey {
    if sort == "pair" then ByPair else if sort == "newest" then NewestFirst else OldestFirst
  }

  /** `a` may precede `b`: the comparator does not return a positive number. */
  predicate InOrder(key: SortKey, a: Signal, b: Signal) {
    match key
    case ByPair => LexLe(a.pair, b.pair)
    case NewestFirst => IdNumber(b.id) <= IdNumber(a.id)
    case OldestFirst => IdNumber(a.id) <= IdNumber(b.id)
  }

  lemma InOrderTotal(key: SortKey, a: Signal, b: Signal)
    ensures InOrder(key, a, b) || InOrder(key, b, a)
  {
    if key == ByPair {
      LexLeTotal(a.pair, b.pair);
    }
  }

  lemma InOrderTransitive(key: SortKey, a: Signal, b: Signal, c: Signal)
    requires InOrder(key, a, b) && InOrder(key, b, c)
    ensures InOrder(key, a, c)
  {
    if key == ByPair {
      LexLeTransitive(a.pair, b.pair, c.pair);
    }
  }

  ghost predicate SortedBy(key: SortKey, xs: seq<Signal>) {
    forall i, j :: 0 <= i < j < |xs| ==> InOrder(key, xs[i], xs[j])
  }

  /** Places `x` before the first element it may precede; `x` goes ahead of
      the elements it ties with, which keeps the sort stable. */
  function Insert(key: SortKey, x: Signal, xs: seq<Signal>): (r: seq<Signal>)
    ensures |r| == |xs| + 1
    ensures multiset(r) == multiset(xs) + multiset{x}
  {
    if xs == [] then [x]
    else if InOrder(key, x, xs[0]) then [x] + xs
    else
      assert xs == [xs[0]] + xs[1..];
      [xs[0]] + Insert(key, x, xs[1..])
  }

  /** A sorted list stays sorted behind an element that may precede all of it. */
  lemma ConsSorted(key: SortKey, y: Signal, rest: seq<Signal>)
    requires SortedBy(key, rest)
    requires forall z :: z in rest ==> InOrder(key, y, z)
    ensures SortedBy(key, [y] + rest)
  {
    var r := [y] + rest;
    forall i, j | 0 <= i < j < |r|
      ensures InOrder(key, r[i], r[j])
    {
      assert r[j] == rest[j - 1];
      if i > 0 {
        assert r[i] == rest[i - 1];
      }
    }
  }

  /** The head of a sorted list may precede every element of it. */
  lemma HeadPrecedes(key: SortKey, xs: seq<Signal>)
    requires SortedBy(key, xs) && xs != []
    ensures forall z :: z in xs[1..] ==> InOrder(key, xs[0], z)
  {
    forall z | z in xs[1..]
      ensures InOrder(key, xs[0], z)
    {
      var k :| 0 <= k < |xs[1..]| && xs[1..][k] == z;
      assert xs[k + 1] == z;
    }
  }

  /** Inserting into a sorted list keeps it sorted. */
  lemma {:induction false} InsertKeepsSorted(key: SortKey, x: Signal, xs: seq<Signal>)
    requires SortedBy(key, xs)
    ensures SortedBy(key, Insert(key, x, xs))
  {
    if xs != [] {
      HeadPrecedes(key, xs);
      assert xs == [xs[0]] + xs[1..];
      if InOrder(key, x, xs[0]) {
        forall z | z in xs
          ensures InOrder(key, x, z)
        {
          if z != xs[0] {
            InOrderTransitive(key, x, xs[0], z);
          }
        }
        ConsSorted(key, x, xs);
      } else {
        var rest := Insert(key, x, xs[1..]);
        InsertKeepsSorted(key, x, xs[1..]);
        InOrderTotal(key, x, xs[0]);
        forall z | z in rest
          ensures InOrder(key, xs[0], z)
        {
          assert z in multiset(rest);
        }
        ConsSorted(key, xs[0], rest);
      }
    }
  }

  /** `[...xs].sort(comparator)`: a stable sort, so its result is a sorted
      permutation of its input. */
  function SortSignals(key: SortKey, xs: seq<Signal>): (r: seq<Signal>)
    ensures |r| == |xs|
    ensures multiset(r) == multiset(xs)
    ensures SortedBy(key, r)
  {
    if xs == [] then []
    else
      assert xs == [xs[0]] + xs[1..];
      var sorted := SortSignals(key, xs[1..]);
      InsertKeepsSorted(key, xs[0], sorted);
      Insert(key, xs[0], sorted)
  }

  /** Sorting a list that is already in order leaves it as it is. */
  lemma {:induction false} SortKeepsSorted(key: SortKey, xs: seq<Signal>)
    requires SortedBy(key, xs)
    ensures SortSignals(key, xs) == xs
  {
    if xs != [] {
      SortKeepsSorted(key, xs[1..]);
      assert [xs[0]] + xs[1..] == xs;
    }
  }

  /** `a` and `b` compare equal: the comparator returns 0 both ways. */
  predicate Ties(key: SortKey, a: Signal, b: Signal) {
    InOrder(key, a, b) && InOrder(key, b, a)
  }

  /** The test "compares equal to `e`", as a filter. */
  function TiesWith(key: SortKey, e: Signal): Signal -> bool {
    z => Ties(key, z, e)
  }

  /** Inserting `x` puts it ahead of every element it ties with, so among the
      elements tied with any `e` it comes first. */
  lemma {:induction false} InsertTies(key: SortKey, x: Signal, ys: seq<Signal>, e: Signal)
    ensures Filter(Insert(key, x, ys), TiesWith(key, e))
         == (if Ties(key, x, e) then [x] else []) + Filter(ys, TiesWith(key, e))
  {
    var p := TiesWith(key, e);
    if ys == [] {
      FilterSingleton(x, p);
    } else if InOrder(key, x, ys[0]) {
      FilterAppend([x], ys, p);
      FilterSingleton(x, p);
    } else {
      assert ys == [ys[0]] + ys[1..];
      InsertTies(key, x, ys[1..], e);
      FilterAppend([ys[0]], Insert(key, x, ys[1..]), p);
      FilterAppend([ys[0]], ys[1..], p);
      FilterSingleton(ys[0], p);
      if Ties(key, x, e) && Ties(key, ys[0], e) {
        InOrderTransitive(key, x, e, ys[0]);
      }
    }
  }

  /** The sort is stable: the elements that compare equal to any `e` keep
      the order they had in the input. */
  lemma {:induction false} SortIsStable(key: SortKey, xs: seq<Signal>, e: Signal)
    ensures Filter(SortSignals(key, xs), TiesWith(key, e)) == Filter(xs, TiesWith(key, e))
  {
    if xs != [] {
      var p := TiesWith(key, e);
      assert xs == [xs[0]] + xs[1..];
      SortIsStable(key, xs[1..], e);
      InsertTies(key, xs[0], SortSignals(key, xs[1..]), e);
      FilterAppend([xs[0]], xs[1..], p);
      FilterSingleton(xs[0], p);
    }
  }

  // ---------------------------------------------------------------- pagination

  function Min(a: int, b: int): int { if a <= b then a else b }
  function Max(a: int, b: int): int { if a >= b then a else b }

  /** `xs.slice(start, start + limit)` for a non-negative start and limit. */
  function Slice(xs: seq<Signal>, start: nat, limit: nat): (r: seq<Signal>)
    ensures |r| == Min(limit, Max(0, |xs| - start))
    ensures forall k :: 0 <= k < |r| ==> r[k] == xs[start + k]
  {
    var lo := Min(start, |xs|);
    var hi := Min(start + limit, |xs|);
    xs[lo..hi]
  }

  /** The search results before pagination: filtered, then sorted. */
  function Results(xs: seq<Signal>, search: string, typeFilter: string, sort: string): (r: seq<Signal>)
    ensures multiset(r) == multiset(FilterSignals(xs, search, typeFilter))
    ensures SortedBy(SortKeyOf(sort), r)
  {
    SortSignals(SortKeyOf(sort), FilterSignals(xs, search, typeFilter))
  }

  /** `(page - 1) * limit`: where page `page` starts. */
  function PageStart(page: int, limit: int): (start: nat)
    requires page >= 1 && limit >= 0
    ensures page == 1 ==> start == 0
  {
    (page - 1) * limit
  }

  /** Filter, sort and page a list of records. Pages are numbered from 1;
      `total` counts every match, not only the page. */
  function QuerySignals(xs: seq<Signal>, page: int, limit: int, search: string, typeFilter: string, sort: string): (r: SignalsResponse)
    requires page >= 1 && limit >= 0
    ensures r.total == |FilterSignals(xs, search, typeFilter)|
    ensures |r.signals| == Min(limit, Max(0, r.total - PageStart(page, limit)))
    ensures forall k :: 0 <= k < |r.signals| ==>
              r.signals[k] == Results(xs, search, typeFilter, sort)[PageStart(page, limit) + k]
  {
    var filtered := FilterSignals(xs, search, typeFilter);
    var sorted := SortSignals(SortKeyOf(sort), filtered);
    SignalsResponse(Slice(sorted, PageStart(page, limit), limit), |filtered|)
  }

  /** `getMockSignals(page, limit, search, type, sort)`: the query over the fixed records. */
  function GetMockSignals(page: int, limit: int, search: string, typeFilter: string, sort: string): (r: SignalsResponse)
    requires page >= 1 && limit >= 0
    ensures r.total <= |MockSignals|
    ensures |r.signals| <= limit
  {
    QuerySignals(MockSignals, page, limit, search, typeFilter, sort)
  }

  /** Every returned record is one of the input records, its pair contains the
      search text ignoring case, and its type is the requested one unless "all". */
  lemma QueryResultsMatch(xs: seq<Signal>, page: int, limit: int, search: string, typeFilter: string, sort: string)
    requires page >= 1 && limit >= 0
    ensures forall s :: s in QuerySignals(xs, page, limit, search, typeFilter, sort).signals ==>
              s in xs && IncludesIgnoreCase(s.pair, search) && (typeFilter != "all" ==> s.signalType == typeFilter)
  {
    var r := QuerySignals(xs, page, limit, search, typeFilter, sort);
    var filtered := FilterSignals(xs, search, typeFilter);
    var sorted := Results(xs, search, typeFilter, sort);
    FilterMembers(xs, s => MatchesQuery(s, search, typeFilter));
    forall s | s in r.signals
      ensures s in xs && MatchesQuery(s, search, typeFilter)
    {
      var k :| 0 <= k < |r.signals| && r.signals[k] == s;
      assert s in multiset(sorted);
      assert s in multiset(filtered);
      assert s in filtered;
    }
  }

  /** `total` depends only on the search and the type, never on the page, the limit or the sort. */
  lemma QueryTotalIgnoresPaging(xs: seq<Signal>, page1: int, limit1: int, page2: int, limit2: int,
                                search: string, typeFilter: string, sort1: string, sort2: string)
    requires page1 >= 1 && limit1 >= 0 && page2 >= 1 && limit2 >= 0
    ensures QuerySignals(xs, page1, limit1, search, typeFilter, sort1).total
         == QuerySignals(xs, page2, limit2, search, typeFilter, sort2).total
  {
  }

  /** The results are a permutation of the matching records, in the order the
      `sort` parameter selects. */
  lemma ResultsSortedPermutation(xs: seq<Signal>, search: string, typeFilter: string, sort: string)
    ensures multiset(Results(xs, search, typeFilter, sort)) == multiset(FilterSignals(xs, search, typeFilter))
    ensures sort == "pair" ==> forall i, j :: 0 <= i < j < |Results(xs, search, typeFilter, sort)| ==>
              LexLe(Results(xs, search, typeFilter, sort)[i].pair, Results(xs, search, typeFilter, sort)[j].pair)
    ensures sort == "newest" ==> forall i, j :: 0 <= i < j < |Results(xs, search, typeFilter, sort)| ==>
              IdNumber(Results(xs, search, typeFilter, sort)[j].id) <= IdNumber(Results(xs, search, typeFilter, sort)[i].id)
    ensures sort != "pair" && sort != "newest" ==> forall i, j :: 0 <= i < j < |Results(xs, search, typeFilter, sort)| ==>
              IdNumber(Results(xs, search, typeFilter, sort)[i].id) <= IdNumber(Results(xs, search, typeFilter, sort)[j].id)
  {
    var r := Results(xs, search, typeFilter, sort);
    assert SortedBy(SortKeyOf(sort), r);
  }

  /** A first page at least as large as the match count holds every match. */
  lemma FirstPageIsComplete(xs: seq<Signal>, limit: int, search: string, typeFilter: string, sort: string)
    requires limit >= |FilterSignals(xs, search, typeFilter)|
    ensures QuerySignals(xs, 1, limit, search, typeFilter, sort).signals == Results(xs, search, typeFilter, sort)
  {
    var r := QuerySignals(xs, 1, limit, search, typeFilter, sort);
    assert |r.signals| == |Results(xs, search, typeFilter, sort)|;
  }

  /** The fixed records carry the ids 1 to 12 in order, so the id comparators
      never see a non-numeric id. */
  lemma MockIdsAreNumbered()
    ensures |MockSignals| == 12
    ensures forall i :: 0 <= i < 12 ==> IdNumber(MockSignals[i].id) == i + 1
  {
  }

  // ---------------------------------------------------------------- store documents

  /** A stored trade document; every field may be absent. `objectId` is the text
      of `_id`. Each present field holds the type the transformation uses it
      as; numbers stored as strings and a non-string type are not modelled. */
  datatype Document = Document(
    objectId: Option<string>,
    id: Option<string>,
    symbol: Option<string>,
    rawType: Option<string>,
    entry: Option<real>,
    exit: Option<real>,
    profit: Option<real>,
    volume: Option<real>,
    time: Option<string>,
    isPremium: Option<bool>,
    premium: Option<bool>)

  /** Contract size used to turn a price difference into money. */
  const StandardLot: real := 100000.0

  /** `doc.rawType?.toLowerCase() ?? "buy"`. */
  function TradeTypeOf(doc: Document): string {
    if doc.rawType.Some? then Lower(doc.rawType.value) else "buy"
  }

  datatype Outcome = Outcome(profit: real, success: bool)

  /** The profit and success shown for a document: a stored non-zero profit
      wins; otherwise a closed trade is priced from its entry and exit;
      otherwise an open trade with an entry gets a small nominal profit. */
  function DeriveOutcome(stored: real, entry: real, exit: real, volume: real, tradeType: string): Outcome {
    if stored != 0.0 then Outcome(stored, stored > 0.0)
    else if entry > 0.0 && exit > 0.0 then
      var diff := if tradeType == "buy" then exit - entry else entry - exit;
      var p := diff * volume * StandardLot;
      Outcome(p, p > 0.0)
    else if entry > 0.0 then Outcome(entry * volume * 0.1, true)
    else Outcome(0.0, false)
  }

  /** A non-zero stored profit decides the outcome whatever the prices, volume and type. */
  lemma StoredProfitWins(stored: real, entry1: real, exit1: real, volume1: real, type1: string,
                         entry2: real, exit2: real, volume2: real, type2: string)
    requires stored != 0.0
    ensures DeriveOutcome(stored, entry1, exit1, volume1, type1)
         == DeriveOutcome(stored, entry2, exit2, volume2, type2)
    ensures DeriveOutcome(stored, entry1, exit1, volume1, type1).success <==> stored > 0.0
  {
  }

  /** For a closed trade without stored profit and a positive volume, a buy
      succeeds exactly when it exits above its entry, any other type exactly
      when it exits below. */
  lemma ClosedTradeSuccess(entry: real, exit: real, volume: real, tradeType: string)
    requires entry > 0.0 && exit > 0.0 && volume > 0.0
    ensures DeriveOutcome(0.0, entry, exit, volume, tradeType).success
        <==> (if tradeType == "buy" then exit > entry else exit < entry)
  {
    var diff := if tradeType == "buy" then exit - entry else entry - exit;
    var p := diff * volume * StandardLot;
    assert diff > 0.0 ==> diff * volume > 0.0;
    assert diff <= 0.0 ==> diff * volume <= 0.0;
    assert p == (diff * volume) * StandardLot;
  }

  /** With a positive volume, success and a positive profit always go together. */
  lemma SuccessAgreesWithProfit(stored: real, entry: real, exit: real, volume: real, tradeType: string)
    requires volume > 0.0
    ensures DeriveOutcome(stored, entry, exit, volume, tradeType).success
        <==> DeriveOutcome(stored, entry, exit, volume, tradeType).profit > 0.0
  {
    if stored == 0.0 && entry > 0.0 && exit <= 0.0 {
      assert entry * volume > 0.0;
    }
  }

  /** Without stored profit and without an entry price nothing can be derived. */
  lemma NoEntryNoProfit(entry: real, exit: real, volume: real, tradeType: string)
    requires entry <= 0.0
    ensures DeriveOutcome(0.0, entry, exit, volume, tradeType) == Outcome(0.0, false)
  {
  }

  /** The take-profit levels: the exit price alone when it is positive. */
  function TakeProfitLevels(exit: real): (r: seq<real>)
    ensures |r| <= 1
    ensures r == [] <==> exit <= 0.0
    ensures forall t :: t in r ==> t == exit && t > 0.0
  {
    if exit > 0.0 then [exit] else []
  }

  /** The stop loss: 0.2% below the entry for a buy, 0.2% above for a sell,
      and 0 for any other type or without an entry. */
  function DeriveStopLoss(entry: real, tradeType: string): (r: real)
  {
    if entry > 0.0 && tradeType == "buy" then entry * 0.998
    else if entry > 0.0 && tradeType == "sell" then entry * 1.002
    else 0.0
  }

  /** A buy's stop lies 0.2% (a 500th of the entry) below its entry and a
      sell's as far above it. */
  lemma StopLossSide(entry: real, tradeType: string)
    ensures entry > 0.0 && tradeType == "buy" ==> 0.0 < DeriveStopLoss(entry, tradeType) < entry
    ensures entry > 0.0 && tradeType == "sell" ==> DeriveStopLoss(entry, tradeType) > entry
    ensures entry > 0.0 && tradeType == "buy" ==> entry - DeriveStopLoss(entry, tradeType) == entry / 500.0
    ensures entry > 0.0 && tradeType == "sell" ==> DeriveStopLoss(entry, tradeType) - entry == entry / 500.0
    ensures entry <= 0.0 || (tradeType != "buy" && tradeType != "sell") ==> DeriveStopLoss(entry, tradeType) == 0.0
  {
  }

  /** The signal built from one document, field by field. */
  function ToSignal(doc: Document): Signal {
    var entry := doc.entry.OrElse(0.0);
    var exit := doc.exit.OrElse(0.0);
    var volume := doc.volume.OrElse(0.01);
    var tradeType := TradeTypeOf(doc);
    var outcome := DeriveOutcome(doc.profit.OrElse(0.0), entry, exit, volume, tradeType);
    Signal(
      doc.objectId.OrElse(doc.id.OrElse("")),
      doc.symbol.OrElse(""),
      tradeType,
      entry,
      TakeProfitLevels(exit),
      DeriveStopLoss(entry, tradeType),
      doc.time.OrElse("Unknown"),
      Some(outcome.success),
      doc.isPremium.OrElse(doc.premium.OrElse(false)),
      Some(outcome.profit),
      Some(volume))
  }

  /** The per-document step of the live path, written as the handler writes it:
      defaults first, then the profit, take-profit and stop-loss chains. */
  method TransformDocument(doc: Document) returns (signal: Signal)
    ensures signal == ToSignal(doc)
  {
    var entryPrice := doc.entry.OrElse(0.0);
    var exitPrice := doc.exit.OrElse(0.0);
    var profit := doc.profit.OrElse(0.0);
    var volume := doc.volume.OrElse(0.01);
    var tradeType := if doc.rawType.Some? then Lower(doc.rawType.value) else "buy";

    var calculatedProfit := 0.0;
    var isSuccessful := false;
    if profit != 0.0 {
      calculatedProfit := profit;
      isSuccessful := profit > 0.0;
    } else if entryPrice > 0.0 && exitPrice > 0.0 {
      var priceDiff := if tradeType == "buy" then exitPrice - entryPrice else entryPrice - exitPrice;
      calculatedProfit := priceDiff * volume * StandardLot;
      isSuccessful := calculatedProfit > 0.0;
    } else if entryPrice > 0.0 {
      calculatedProfit := entryPrice * volume * 0.1;
      isSuccessful := true;
    }

    var takeProfitLevels: seq<real> := [];
    if exitPrice > 0.0 {
      takeProfitLevels := takeProfitLevels + [exitPrice];
    }

    var stopLoss := 0.0;
    if entryPrice > 0.0 {
      if tradeType == "buy" {
        stopLoss := entryPrice * 0.998;
      } else if tradeType == "sell" {
        stopLoss := entryPrice * 1.002;
      }
    }

    assert takeProfitLevels == TakeProfitLevels(exitPrice);
    assert stopLoss == DeriveStopLoss(entryPrice, tradeType);
    assert Outcome(calculatedProfit, isSuccessful) == DeriveOutcome(profit, entryPrice, exitPrice, volume, tradeType);
    signal := Signal(
      doc.objectId.OrElse(doc.id.OrElse("")),
      doc.symbol.OrElse(""),
      tradeType,
      entryPrice,
      takeProfitLevels,
      stopLoss,
      doc.time.OrElse("Unknown"),
      Some(isSuccessful),
      doc.isPremium.OrElse(doc.premium.OrElse(false)),
      Some(calculatedProfit),
      Some(volume));
  }

  const EmptyDocument := Document(None, None, None, None, None, None, None, None, None, None, None)

  /** The defaults: a document with no fields becomes an unsuccessful, free
      buy with zero prices, volume 0.01 and timestamp "Unknown". */
  lemma EmptyDocumentDefaults()
    ensures ToSignal(EmptyDocument)
         == Signal("", "", "buy", 0.0, [], 0.0, "Unknown", Some(false), false, Some(0.0), Some(0.01))
  {
  }

  /** `isPremium` wins over `premium`, which is used only when `isPremium` is absent. */
  lemma PremiumPrecedence(doc: Document)
    ensures doc.isPremium.Some? ==> ToSignal(doc).isPremium == doc.isPremium.value
    ensures doc.isPremium.None? && doc.premium.Some? ==> ToSignal(doc).isPremium == doc.premium.value
    ensures doc.isPremium.None? && doc.premium.None? ==> !ToSignal(doc).isPremium
  {
  }

  /** A transformed signal always carries a success flag, a profit and a volume. */
  lemma TransformedSignalIsComplete(doc: Document)
    ensures ToSignal(doc).success.Some? && ToSignal(doc).profit.Some? && ToSignal(doc).volume.Some?
    ensures |ToSignal(doc).takeProfit| <= 1
  {
  }
}

=== FILE: signals_page.dfy ===
/** The signals page (`/signals`): the sample signals, narrowed by the search
    box and the buy/sell/all filter, then ordered by the chosen sort, all on
    the client and without paging. */
module SignalsPage {
  import opened Optional
  import opened Strings
  import opened Collections
  import opened SignalData

  /** The type filter buttons. */
  datatype TypeFilter = All | BuyOnly | SellOnly

  /** The sort buttons. */
  datatype SortOrder = Newest | Oldest | PairAZ

  function FilterName(f: TypeFilter): string {
    match f
    case All => "all"
    case BuyOnly => "buy"
    case SellOnly => "sell"
  }

  function OrderName(o: SortOrder): string {
    match o
    case Newest => "newest"
    case Oldest => "oldest"
    case PairAZ => "pair"
  }

  /** The comparator each sort button selects. */
  function OrderKey(o: SortOrder): (k: SortKey)
    ensures k == SortKeyOf(OrderName(o))
  {
    match o
    case Newest => NewestFirst
    case Oldest => OldestFirst
    case PairAZ => ByPair
  }

  /** The page's own copy of the sample signals. */
  const SampleSignals: seq<Signal> := [
      Signal("1", "EUR/USD", "buy", 1.0825, [1.0845, 1.0865, 1.0885], 1.0805, "Today - 10:30", Some(true), false, None, None),
      Signal("2", "GBP/JPY", "sell", 168.45, [168.25, 168.05], 168.65, "Today - 08:15", Some(false), false, None, None),
      Signal("3", "XAU/USD", "buy", 2352.0, [2360.0, 2370.0, 2380.0], 2340.0, "Yesterday - 15:45", None, true, None, None),
      Signal("4", "USD/JPY", "buy", 154.5, [154.8, 155.1], 154.2, "Yesterday - 12:20", Some(true), false, None, None),
      Signal("5", "EUR/GBP", "sell", 0.855, [0.853, 0.851], 0.857, "Yesterday - 09:45", Some(true), false, None, None),
      Signal("6", "AUD/USD", "buy", 0.6625, [0.6645, 0.6665], 0.6605, "2 days ago - 14:30", None, true, None, None),
      Signal("7", "USD/CAD", "sell", 1.365, [1.363, 1.361, 1.359], 1.367, "2 days ago - 11:15", Some(false), false, None, None),
      Signal("8", "NZD/USD", "buy", 0.5985, [0.6005, 0.6025], 0.5965, "3 days ago - 16:40", Some(true), false, None, None),
      Signal("9", "GBP/USD", "sell", 1.2485, [1.2465, 1.2445, 1.2425], 1.2505, "3 days ago - 13:20", Some(true), false, None, None),
      Signal("10", "USD/CHF", "buy", 0.9045, [0.9065, 0.9085], 0.9025, "4 days ago - 09:15", Some(true), false, None, None),
      Signal("11", "EUR/JPY", "sell", 164.75, [164.55, 164.35, 164.15], 164.95, "4 days ago - 14:50", Some(false), false, None, None),
      Signal("12", "CAD/JPY", "buy", 113.25, [113.45, 113.65], 113.05, "5 days ago - 11:30", None, true, None, None)
    ]

  /** A card is shown when its pair contains the query ignoring case and its
      type passes the filter. */
  predicate Shown(s: Signal, query: string, filter: TypeFilter) {
    IncludesIgnoreCase(s.pair, query)
      && match filter
         case All => true
         case BuyOnly => s.signalType == "buy"
         case SellOnly => s.signalType == "sell"
  }

  /** The cards shown for a list of signals, in display order. */
  function Visible(xs: seq<Signal>, query: string, filter: TypeFilter, order: SortOrder): (r: seq<Signal>)
    ensures multiset(r) == multiset(Filter(xs, s => Shown(s, query, filter)))
    ensures SortedBy(OrderKey(order), r)
  {
    SortSignals(OrderKey(order), Filter(xs, s => Shown(s, query, filter)))
  }

  /** The cards on the page. */
  function VisibleSignals(query: string, filter: TypeFilter, order: SortOrder): seq<Signal> {
    Visible(SampleSignals, query, filter, order)
  }

  /** Exactly the signals that pass the search and the filter are shown. */
  lemma VisibleAreShown(xs: seq<Signal>, query: string, filter: TypeFilter, order: SortOrder)
    ensures forall s :: s in Visible(xs, query, filter, order) <==> s in xs && Shown(s, query, filter)
  {
    var r := Visible(xs, query, filter, order);
    FilterMembers(xs, s => Shown(s, query, filter));
    forall s ensures s in r <==> s in multiset(r) {
    }
  }

  /** Each sort button's order: "pair" ascending by pair, "newest" by
      decreasing id, "oldest" by increasing id. */
  lemma VisibleOrder(xs: seq<Signal>, query: string, filter: TypeFilter)
    ensures forall i, j :: 0 <= i < j < |Visible(xs, query, filter, PairAZ)| ==>
              LexLe(Visible(xs, query, filter, PairAZ)[i].pair, Visible(xs, query, filter, PairAZ)[j].pair)
    ensures forall i, j :: 0 <= i < j < |Visible(xs, query, filter, Newest)| ==>
              IdNumber(Visible(xs, query, filter, Newest)[j].id) <= IdNumber(Visible(xs, query, filter, Newest)[i].id)
    ensures forall i, j :: 0 <= i < j < |Visible(xs, query, filter, Oldest)| ==>
              IdNumber(Visible(xs, query, filter, Oldest)[i].id) <= IdNumber(Visible(xs, query, filter, Oldest)[j].id)
  {
    assert SortedBy(ByPair, Visible(xs, query, filter, PairAZ));
    assert SortedBy(NewestFirst, Visible(xs, query, filter, Newest));
    assert SortedBy(OldestFirst, Visible(xs, query, filter, Oldest));
  }

  /** An empty search under "all" shows every signal; oldest first, a list
      already in id order is shown as it is. */
  lemma EmptyQueryShowsAll(xs: seq<Signal>, order: SortOrder)
    ensures |Visible(xs, "", All, order)| == |xs|
    ensures multiset(Visible(xs, "", All, order)) == multiset(xs)
    ensures SortedBy(OldestFirst, xs) ==> Visible(xs, "", All, Oldest) == xs
  {
    forall s | s in xs ensures Shown(s, "", All) {
      IncludesEmpty(Lower(s.pair));
    }
    FilterKeepsAll(xs, s => Shown(s, "", All));
    if SortedBy(OldestFirst, xs) {
      SortKeepsSorted(OldestFirst, xs);
    }
  }

  /** The samples carry the ids 1 to 12 in order. */
  lemma SamplesInIdOrder()
    ensures |SampleSignals| == 12
    ensures SortedBy(OldestFirst, SampleSignals)
  {
    SamplesAreMockSignals();
    MockIdsAreNumbered();
  }

  /** On the page itself, with the search box empty and "all" selected, all
      twelve samples are shown, whatever the sort. */
  lemma EmptyQueryShowsTwelve(order: SortOrder)
    ensures |VisibleSignals("", All, order)| == 12
  {
    SamplesInIdOrder();
    EmptyQueryShowsAll(SampleSignals, order);
  }

  /** Sorted oldest first, they appear in their listed order. */
  lemma EmptyQueryOldestIsListed()
    ensures VisibleSignals("", All, Oldest) == SampleSignals
  {
    SamplesInIdOrder();
    EmptyQueryShowsAll(SampleSignals, Oldest);
  }

  /** The page and the data endpoint share their sample data. */
  lemma SamplesAreMockSignals()
    ensures SampleSignals == MockSignals
  {
  }

  /** The page's filter is the endpoint's filter with the button's name as `type`. */
  lemma ShownIsMatchesQuery(s: Signal, query: string, filter: TypeFilter)
    ensures Shown(s, query, filter) == MatchesQuery(s, query, FilterName(filter))
  {
  }

  /** With no paging on the page, what it shows is the endpoint's first page
      for any limit of at least twelve. */
  lemma PageIsFirstEndpointPage(query: string, filter: TypeFilter, order: SortOrder, limit: int)
    requires limit >= 12
    ensures VisibleSignals(query, filter, order)
         == GetMockSignals(1, limit, query, FilterName(filter), OrderName(order)).signals
  {
    SamplesAreMockSignals();
    MockIdsAreNumbered();
    forall s | s in MockSignals
      ensures Shown(s, query, filter) == MatchesQuery(s, query, FilterName(filter))
    {
      ShownIsMatchesQuery(s, query, filter);
    }
    FilterCongruent(MockSignals, s => Shown(s, query, filter), s => MatchesQuery(s, query, FilterName(filter)));
    FirstPageIsComplete(MockSignals, limit, query, FilterName(filter), OrderName(order));
  }
}

=== FILE: signals_table.dfy ===
/** The display decisions of the signals table: the three-way status, the
    type colour, and the take-profit, volume and profit cells. */
module SignalsTableView {
  import opened Optional
  import opened Strings
  import opened TableView
  import opened Translation
  import opened SignalData
  import MonthlyTable

  /** `getStatusColor`: won green, lost red, still open yellow. */
  function StatusTone(success: Option<bool>): (t: Tone)
    ensures t == Green <==> success == Some(true)
    ensures t == Red <==> success == Some(false)
    ensures t == Yellow <==> success.None?
  {
    match success
    case Some(true) => Green
    case Some(false) => Red
    case None => Yellow
  }

  const Successful := "\U{0645}\U{0648}\U{0641}\U{0642}"
  const Unsuccessful := "\U{0646}\U{0627}\U{0645}\U{0648}\U{0641}\U{0642}"
  const Open := "\U{0628}\U{0627}\U{0632}"

  /** `getStatusText` as written: the translation of "successful",
      "unsuccessful" or "open", or the Farsi text when that translation is
      the empty string. */
  function StatusText(translations: Json, success: Option<bool>): string {
    match success
    case Some(true) => MonthlyTable.OrElseText(T(translations, "successful"), Successful)
    case Some(false) => MonthlyTable.OrElseText(T(translations, "unsuccessful"), Unsuccessful)
    case None => MonthlyTable.OrElseText(T(translations, "open"), Open)
  }

  /** Because `t` answers a missing key with the key itself, the Farsi text
      after `||` is never reached for a missing translation: before the
      translation file loads an open signal reads "open", not its Farsi text. */
  lemma UntranslatedStatusIsKey()
    ensures StatusText(NoTranslations, None) == "open"
    ensures StatusText(NoTranslations, None) != Open
  {
    NothingLoadedShowsKeys("open");
  }

  /** The translated text of `key`, or `fallback` when the key leads to no
      non-empty string. */
  function TextOr(translations: Json, key: string, fallback: string): (r: string)
    ensures Resolve(translations, Split(key, '.')) == None ==> r == fallback
    ensures forall s :: Resolve(translations, Split(key, '.')) == Some(JStr(s)) && s != "" ==> r == s
  {
    match Resolve(translations, Split(key, '.'))
    case Some(JStr(s)) => if s != "" then s else fallback
    case _ => fallback
  }

  /** The status text with the Farsi fallback applied to missing translations. */
  function StatusTextOrFarsi(translations: Json, success: Option<bool>): string {
    match success
    case Some(true) => TextOr(translations, "successful", Successful)
    case Some(false) => TextOr(translations, "unsuccessful", Unsuccessful)
    case None => TextOr(translations, "open", Open)
  }

  /** Where `t` finds a non-empty translation other than the key itself, the
      corrected text and the text as written agree. */
  lemma TextOrKeepsTranslation(translations: Json, key: string, fallback: string)
    requires T(translations, key) != key && T(translations, key) != ""
    ensures TextOr(translations, key, fallback) == MonthlyTable.OrElseText(T(translations, key), fallback)
  {
    TranslateIsKeyOrLeaf(translations, key);
  }

  /** With the fallback applied to missing translations, an untranslated
      status reads in Farsi, and a translated one keeps its translation. */
  lemma FallbackReachesFarsi(translations: Json, success: Option<bool>)
    ensures StatusTextOrFarsi(NoTranslations, success)
         == (match success case Some(true) => Successful case Some(false) => Unsuccessful case None => Open)
    ensures var key := (match success case Some(true) => "successful" case Some(false) => "unsuccessful" case None => "open");
            T(translations, key) != key && T(translations, key) != ""
            ==> StatusTextOrFarsi(translations, success) == StatusText(translations, success)
  {
    assert Child(NoTranslations, Split("successful", '.')[0]) == None;
    assert Child(NoTranslations, Split("unsuccessful", '.')[0]) == None;
    assert Child(NoTranslations, Split("open", '.')[0]) == None;
    var key := (match success case Some(true) => "successful" case Some(false) => "unsuccessful" case None => "open");
    var fallback := (match success case Some(true) => Successful case Some(false) => Unsuccessful case None => Open);
    if T(translations, key) != key && T(translations, key) != "" {
      TextOrKeepsTranslation(translations, key, fallback);
    }
  }

  /** `getTypeColor`. */
  function TypeTone(signalType: string): (t: Tone)
    ensures t == Green <==> signalType == "buy"
    ensures t == Red <==> signalType != "buy"
  {
    if signalType == "buy" then Green else Red
  }

  /** `getTypeText`: the translation of "buy" for a buy and of "sell" for
      anything else, with the Farsi text after `||`. */
  function TypeText(translations: Json, signalType: string): (r: string)
    ensures r != ""
    ensures signalType == "buy" && T(translations, "buy") != "" ==> r == T(translations, "buy")
    ensures signalType == "buy" && T(translations, "buy") == "" ==> r == "\U{062E}\U{0631}\U{06CC}\U{062F}"
    ensures signalType != "buy" && T(translations, "sell") != "" ==> r == T(translations, "sell")
    ensures signalType != "buy" && T(translations, "sell") == "" ==> r == "\U{0641}\U{0631}\U{0648}\U{0634}"
  {
    TranslateIsKeyOrLeaf(translations, "buy");
    TranslateIsKeyOrLeaf(translations, "sell");
    if signalType == "buy" then MonthlyTable.OrElseText(T(translations, "buy"), "\U{062E}\U{0631}\U{06CC}\U{062F}")
    else MonthlyTable.OrElseText(T(translations, "sell"), "\U{0641}\U{0631}\U{0648}\U{0634}")
  }

  /** The take-profit cell: the formatted levels joined with ", ", or "-"
      when there are none. */
  function TakeProfitCell(levels: seq<real>, format: real -> string): (r: string)
    ensures levels == [] ==> r == "-"
    ensures |levels| == 1 ==> r == format(levels[0])
  {
    if |levels| > 0 then Join(seq(|levels|, i requires 0 <= i < |levels| => format(levels[i])), ", ")
    else "-"
  }

  /** Joining `n` comma-free pieces with ", " puts `n - 1` commas between them. */
  lemma {:induction false} JoinCommaCount(parts: seq<string>)
    requires |parts| >= 1
    requires forall i :: 0 <= i < |parts| ==> ',' !in parts[i]
    ensures CountChar(Join(parts, ", "), ',') == |parts| - 1
  {
    CountCharAbsent(parts[0], ',');
    if |parts| > 1 {
      JoinCommaCount(parts[1..]);
      CountCharAppend(parts[0] + ", ", Join(parts[1..], ", "), ',');
      CountCharAppend(parts[0], ", ", ',');
      assert CountChar(", ", ',') == 1 by {
        assert ", "[1..] == " ";
        assert " "[1..] == "";
      }
    }
  }

  /** `n` targets show with `n - 1` separators, as long as a formatted
      number has no comma (which `toFixed` never produces). */
  lemma TakeProfitSeparators(levels: seq<real>, format: real -> string)
    requires |levels| >= 1
    requires forall x :: ',' !in format(x)
    ensures CountChar(TakeProfitCell(levels, format), ',') == |levels| - 1
  {
    var parts := seq(|levels|, i requires 0 <= i < |levels| => format(levels[i]));
    forall i | 0 <= i < |parts|
      ensures ',' !in parts[i]
    {
      var x := levels[i];
      assert ',' !in format(x);
      assert parts[i] == format(x);
    }
    JoinCommaCount(parts);
  }

  /** The volume cell: "-" for an absent or zero volume. */
  function VolumeCell(volume: Option<real>, format: real -> string): (r: string)
    ensures volume.None? ==> r == "-"
    ensures volume == Some(0.0) ==> r == "-"
    ensures volume.Some? && volume.value != 0.0 ==> r == format(volume.value)
  {
    if volume.Some? && volume.value != 0.0 then format(volume.value) else "-"
  }

  /** The profit colour: a missing profit counts as zero, which is green. */
  function ProfitTone(profit: Option<real>): (t: Tone)
    ensures t == Green <==> profit.None? || profit.value >= 0.0
  {
    if profit.OrElse(0.0) >= 0.0 then Green else Red
  }

  /** A signal built from a stored document always has an outcome, so it is
      never shown as open; its profit and volume are always present. */
  lemma StoredSignalsAreNeverOpen(doc: Document)
    ensures StatusTone(ToSignal(doc).success) != Yellow
    ensures ToSignal(doc).profit.Some? && ToSignal(doc).volume.Some?
  {
  }
}

=== FILE: strings.dfy ===
/** Text helpers shared by the signal endpoints, the contact route and the
    translation lookup: lower-casing, `includes`, `trim`, `split`/`join`,
    code-point ordering and decimal digits. Strings are sequences of characters. */
module Strings {

  // ---------------------------------------------------------------- case

  /** `toLowerCase` on one character; only the ASCII letters A-Z are mapped. */
  function LowerChar(c: char): char {
    if 'A' <= c <= 'Z' then (c as int + 32) as char else c
  }

  function Lower(s: string): (r: string)
    ensures |r| == |s|
    ensures forall i :: 0 <= i < |s| ==> r[i] == LowerChar(s[i])
  {
    seq(|s|, i requires 0 <= i < |s| => LowerChar(s[i]))
  }

  lemma LowerIdempotent(s: string)
    ensures Lower(Lower(s)) == Lower(s)
  {
  }

  // ---------------------------------------------------------------- includes

  /** `s.includes(sub)`: `sub` occurs in `s` at some position. */
  function Includes(s: string, sub: string): bool
  {
    sub <= s || (s != [] && Includes(s[1..], sub))
  }

  ghost predicate OccursAt(s: string, sub: string, i: int) {
    0 <= i && i + |sub| <= |s| && s[i..i + |sub|] == sub
  }

  /** `Includes` holds exactly when `sub` occurs at some index of `s`. */
  lemma {:induction false} IncludesIff(s: string, sub: string)
    ensures Includes(s, sub) <==> exists i :: OccursAt(s, sub, i)
  {
    if sub <= s {
      assert OccursAt(s, sub, 0);
    } else if s == [] {
      assert forall i :: !OccursAt(s, sub, i);
    } else {
      IncludesIff(s[1..], sub);
      forall i | OccursAt(s[1..], sub, i)
        ensures OccursAt(s, sub, i + 1)
      {
        assert s[1..][i..i + |sub|] == s[i + 1..i + 1 + |sub|];
      }
      forall i | OccursAt(s, sub, i)
        ensures OccursAt(s[1..], sub, i - 1)
      {
        assert i == 0 ==> sub <= s;
        assert s[1..][i - 1..i - 1 + |sub|] == s[i..i + |sub|];
      }
    }
  }

  /** Every string includes the empty string. */
  lemma IncludesEmpty(s: string)
    ensures Includes(s, "")
  {
  }

  /** `s.toLowerCase().includes(q.toLowerCase())`. */
  function IncludesIgnoreCase(s: string, q: string): bool {
    Includes(Lower(s), Lower(q))
  }

  // ---------------------------------------------------------------- whitespace

  /** The characters JavaScript's `\s` and `trim` treat as white space: the
      ECMAScript WhiteSpace and LineTerminator code points. */
  predicate IsJsWhitespace(c: char) {
    c == '\t' || c == '\n' || c == '\U{000B}' || c == '\U{000C}' || c == '\r' || c == ' '
    || c == '\U{00A0}' || c == '\U{1680}' || ('\U{2000}' <= c <= '\U{200A}')
    || c == '\U{2028}' || c == '\U{2029}' || c == '\U{202F}' || c == '\U{205F}'
    || c == '\U{3000}' || c == '\U{FEFF}'
  }

  /** Number of white-space characters at the front of `s`. */
  function LeadingWhitespace(s: string): (n: nat)
    ensures n <= |s|
    ensures forall k :: 0 <= k < n ==> IsJsWhitespace(s[k])
    ensures n < |s| ==> !IsJsWhitespace(s[n])
  {
    if s != [] && IsJsWhitespace(s[0]) then 1 + LeadingWhitespace(s[1..]) else 0
  }

  /** Number of white-space characters at the back of `s`. */
  function TrailingWhitespace(s: string): (n: nat)
    ensures n <= |s|
    ensures forall k :: |s| - n <= k < |s| ==> IsJsWhitespace(s[k])
    ensures n < |s| ==> !IsJsWhitespace(s[|s| - n - 1])
  {
    if s != [] && IsJsWhitespace(s[|s| - 1]) then 1 + TrailingWhitespace(s[..|s| - 1]) else 0
  }

  /** `r` sits at index `i` of `s` with only white space around it. */
  ghost predicate FramedByWhitespace(s: string, r: string, i: int) {
    0 <= i <= |s| - |r| && s[i..i + |r|] == r
    && (forall k :: 0 <= k < i ==> IsJsWhitespace(s[k]))
    && (forall k :: i + |r| <= k < |s| ==> IsJsWhitespace(s[k]))
  }

  /** `s.trim()`: the infix of `s` left when white space is removed from both ends. */
  function Trim(s: string): (r: string)
    ensures |r| <= |s|
    ensures r != [] ==> !IsJsWhitespace(r[0]) && !IsJsWhitespace(r[|r| - 1])
    ensures exists i :: FramedByWhitespace(s, r, i)
  {
    var a := LeadingWhitespace(s);
    var rest := s[a..];
    var b := TrailingWhitespace(rest);
    var r := rest[..|rest| - b];
    assert s[a..a + |r|] == r;
    assert forall k :: a + |r| <= k < |s| ==> s[k] == rest[k - a];
    assert FramedByWhitespace(s, r, a);
    r
  }

  // ---------------------------------------------------------------- ordering

  /** Code-point lexicographic order: `a` sorts no later than `b`. */
  predicate LexLe(a: string, b: string)
    decreases |a|
  {
    a == [] || (b != [] && (a[0] < b[0] || (a[0] == b[0] && LexLe(a[1..], b[1..]))))
  }

  lemma {:induction false} LexLeTotal(a: string, b: string)
    ensures LexLe(a, b) || LexLe(b, a)
    decreases |a|
  {
    if a != [] && b != [] && a[0] == b[0] {
      LexLeTotal(a[1..], b[1..]);
    }
  }

  lemma {:induction false} LexLeTransitive(a: string, b: string, c: string)
    requires LexLe(a, b) && LexLe(b, c)
    ensures LexLe(a, c)
    decreases |a|
  {
    if a != [] && a[0] == b[0] && b[0] == c[0] {
      LexLeTransitive(a[1..], b[1..], c[1..]);
    }
  }

  lemma {:induction false} LexLeAntisymmetric(a: string, b: string)
    requires LexLe(a, b) && LexLe(b, a)
    ensures a == b
    decreases |a|
  {
    if a != [] {
      LexLeAntisymmetric(a[1..], b[1..]);
      assert a == [a[0]] + a[1..] && b == [b[0]] + b[1..];
    }
  }

  // ---------------------------------------------------------------- split / join

  /** `s.split(sep)` for a one-character separator. */
  function Split(s: string, sep: char): (parts: seq<string>)
    ensures |parts| >= 1
    ensures forall i :: 0 <= i < |parts| ==> sep !in parts[i]
  {
    if s == [] then [[]]
    else
      var rest := Split(s[1..], sep);
      if s[0] == sep then [[]] + rest
      else [[s[0]] + rest[0]] + rest[1..]
  }

  /** `parts.join(sep)`. */
  function Join(parts: seq<string>, sep: string): string
  {
    if parts == [] then []
    else if |parts| == 1 then parts[0]
    else parts[0] + sep + Join(parts[1..], sep)
  }

  /** Joining the pieces of a split puts the string back together. */
  lemma {:induction false} JoinSplit(s: string, sep: char)
    ensures Join(Split(s, sep), [sep]) == s
  {
    if s != [] {
      JoinSplit(s[1..], sep);
      var rest := Split(s[1..], sep);
      if s[0] == sep {
        assert ([[]] + rest)[1..] == rest;
      } else {
        var parts := [[s[0]] + rest[0]] + rest[1..];
        if |rest| == 1 {
          assert Join(parts, [sep]) == [s[0]] + rest[0];
        } else {
          assert parts[1..] == rest[1..];
          assert Join(rest, [sep]) == rest[0] + [sep] + Join(rest[1..], [sep]);
        }
      }
    }
  }

  /** A string without the separator splits into itself alone. */
  lemma {:induction false} SplitWithoutSeparator(p: string, sep: char)
    requires sep !in p
    ensures Split(p, sep) == [p]
  {
    if p != [] {
      SplitWithoutSeparator(p[1..], sep);
      assert p == [p[0]] + p[1..];
    }
  }

  /** The separator after a separator-free prefix ends exactly the first piece. */
  lemma {:induction false} SplitAtSeparator(p: string, sep: char, r: string)
    requires sep !in p
    ensures Split(p + [sep] + r, sep) == [p] + Split(r, sep)
  {
    if p != [] {
      assert (p + [sep] + r)[1..] == p[1..] + [sep] + r;
      SplitAtSeparator(p[1..], sep, r);
      assert (p + [sep] + r)[0] == p[0];
      assert p == [p[0]] + p[1..];
    } else {
      assert (p + [sep] + r)[1..] == r;
    }
  }

  /** Splitting a join of separator-free pieces gives the pieces back. */
  lemma {:induction false} SplitJoin(parts: seq<string>, sep: char)
    requires |parts| >= 1
    requires forall i :: 0 <= i < |parts| ==> sep !in parts[i]
    ensures Split(Join(parts, [sep]), sep) == parts
  {
    if |parts| == 1 {
      SplitWithoutSeparator(parts[0], sep);
    } else {
      SplitJoin(parts[1..], sep);
      SplitAtSeparator(parts[0], sep, Join(parts[1..], [sep]));
      assert [parts[0]] + parts[1..] == parts;
    }
  }

  /** Number of occurrences of `c` in `s`. */
  function CountChar(s: string, c: char): nat
  {
    if s == [] then 0 else (if s[0] == c then 1 else 0) + CountChar(s[1..], c)
  }

  lemma {:induction false} CountCharAppend(a: string, b: string, c: char)
    ensures CountChar(a + b, c) == CountChar(a, c) + CountChar(b, c)
  {
    if a == [] {
      assert a + b == b;
    } else {
      assert (a + b)[1..] == a[1..] + b;
      CountCharAppend(a[1..], b, c);
    }
  }

  lemma {:induction false} CountCharAbsent(s: string, c: char)
    requires c !in s
    ensures CountChar(s, c) == 0
  {
    if s != [] {
      CountCharAbsent(s[1..], c);
    }
  }

  // ---------------------------------------------------------------- digits

  predicate IsDigit(c: char) {
    '0' <= c <= '9'
  }

  function DigitValue(c: char): nat
    requires IsDigit(c)
  {
    c as int - '0' as int
  }

  function DigitChar(d: nat): (c: char)
    requires d < 10
    ensures IsDigit(c) && DigitValue(c) == d
  {
    ('0' as int + d) as char
  }

  predicate AllDigits(s: string) {
    forall i :: 0 <= i < |s| ==> IsDigit(s[i])
  }

  /** The value of a run of decimal digits, most significant first. */
  function DigitsValue(s: string): nat
    requires AllDigits(s)
  {
    if s == [] then 0 else DigitsValue(s[..|s| - 1]) * 10 + DigitValue(s[|s| - 1])
  }

  /** The longest prefix of `s` made of decimal digits. */
  function LeadingDigits(s: string): (r: string)
    ensures r <= s && AllDigits(r)
    ensures |r| < |s| ==> !IsDigit(s[|r|])
  {
    if s != [] && IsDigit(s[0]) then [s[0]] + LeadingDigits(s[1..]) else []
  }

  /** The usual decimal rendering of a natural number, without leading zeros. */
  function DecimalString(n: nat): (s: string)
    ensures |s| >= 1 && AllDigits(s)
  {
    if n < 10 then [DigitChar(n)] else DecimalString(n / 10) + [DigitChar(n % 10)]
  }

  /** Reading back a rendered number gives the number. */
  lemma {:induction false} DecimalStringValue(n: nat)
    ensures DigitsValue(DecimalString(n)) == n
  {
    var s := DecimalString(n);
    if n >= 10 {
      DecimalStringValue(n / 10);
      assert s[..|s| - 1] == DecimalString(n / 10);
    }
  }
}

=== FILE: table_view.dfy ===
/** State and decisions shared by the three signal tables: the set of expanded
    rows, the sort request a header click sends, and the colour classes. */
module TableView {
  import opened Optional

  /** The interface languages. */
  datatype Language = En | Fa

  /** The colour a cell or badge is drawn in (`text-green-400`, …). */
  datatype Tone = Green | Red | Gray | Blue | Yellow

  // ---------------------------------------------------------------- row expansion

  /** The expanded rows after a click on row `id`: it closes if it was open
      and opens if it was closed. */
  function Toggled(rows: set<string>, id: string): (r: set<string>)
    ensures id in r <==> id !in rows
    ensures forall x :: x != id ==> (x in r <==> x in rows)
  {
    if id in rows then rows - {id} else rows + {id}
  }

  /** Two clicks on the same row restore the set. */
  lemma ToggleTwice(rows: set<string>, id: string)
    ensures Toggled(Toggled(rows, id), id) == rows
  {
  }

  /** Clicks on different rows can come in either order. */
  lemma ToggleCommutes(rows: set<string>, a: string, b: string)
    ensures Toggled(Toggled(rows, a), b) == Toggled(Toggled(rows, b), a)
  {
  }

  /** The `expandedRows` state of a table. */
  class ExpandedRows {
    var rows: set<string>

    /** No row is expanded at first. */
    constructor()
      ensures rows == {}
    {
      rows := {};
    }

    predicate IsExpanded(id: string)
      reads this
    {
      id in rows
    }

    /** `toggleRowExpansion(id)`: copy the set, delete `id` if it is there
        and add it otherwise, and keep the copy. */
    method Toggle(id: string)
      modifies this
      ensures rows == Toggled(old(rows), id)
      ensures IsExpanded(id) <==> !old(IsExpanded(id))
    {
      var expanded := rows;
      if id in expanded {
        expanded := expanded - {id};
      } else {
        expanded := expanded + {id};
      }
      rows := expanded;
    }
  }

  // ---------------------------------------------------------------- sorting

  datatype Direction = Asc | Desc

  /** What a header click passes to `onSort`. */
  datatype SortRequest = SortRequest(field: string, direction: Direction)

  function Opposite(d: Direction): Direction {
    if d == Asc then Desc else Asc
  }

  /** `handleSort(field)`: nothing without an `onSort` callback; otherwise
      descending when the column is already sorted ascending, and ascending
      in every other case. */
  function HandleSort(hasOnSort: bool, sortField: Option<string>, sortDirection: Option<Direction>, field: string): (r: Option<SortRequest>)
    ensures r.Some? <==> hasOnSort
    ensures r.Some? ==> r.value.field == field
    ensures r.Some? ==> (r.value.direction == Desc <==> sortField == Some(field) && sortDirection == Some(Asc))
  {
    if !hasOnSort then None
    else if sortField == Some(field) && sortDirection == Some(Asc) then Some(SortRequest(field, Desc))
    else Some(SortRequest(field, Asc))
  }

  /** Once the parent applies each request, repeated clicks on one column
      alternate between ascending and descending. */
  lemma RepeatedClicksAlternate(field: string, d: Direction)
    ensures HandleSort(true, Some(field), Some(d), field) == Some(SortRequest(field, Opposite(d)))
  {
  }

  /** A click on a column that is not the sorted one, or before any sort,
      asks for ascending order. */
  lemma NewColumnStartsAscending(sortField: Option<string>, sortDirection: Option<Direction>, field: string)
    requires sortField != Some(field)
    ensures HandleSort(true, sortField, sortDirection, field) == Some(SortRequest(field, Asc))
  {
  }
}

=== FILE: translation.dfy ===
/** The translation function `t` of the language provider: a dotted key is
    looked up one segment at a time in the loaded translation tree, and the
    key itself is shown when the lookup fails or ends at something that is not
    a string. */
module Translation {
  import opened Optional
  import opened Strings

  /** A loaded translation file: strings, nested objects, arrays, and
      everything else (numbers, booleans, `null`) as `JOther`. */
  datatype Json = JStr(s: string) | JObj(fields: map<string, Json>) | JArr(items: seq<Json>) | JOther

  /** The translations before any file has loaded. */
  const NoTranslations: Json := JObj(map[])

  /** `k` names an element of an array of length `n`: a canonical decimal
      index below `n`. */
  predicate IsArrayIndex(k: string, n: nat) {
    k != [] && AllDigits(k) && DecimalString(DigitsValue(k)) == k && DigitsValue(k) < n
  }

  /** One step of the walk: `result[k]` when `result` is a non-null object
      that has `k`. Strings and the other primitives have no members; an
      array has its indices and its `length`. */
  function Child(j: Json, k: string): (r: Option<Json>)
    ensures r.Some? ==> j.JObj? || j.JArr?
    ensures j.JObj? ==> (r.Some? <==> k in j.fields)
  {
    match j
    case JObj(fields) => if k in fields then Some(fields[k]) else None
    case JArr(items) =>
      if IsArrayIndex(k, |items|) then Some(items[DigitsValue(k)])
      else if k == "length" then Some(JOther)
      else None
    case _ => None
  }

  /** Where a path of segments leads from `j`, if every step exists. */
  function Resolve(j: Json, path: seq<string>): Option<Json>
    decreases |path|
  {
    if path == [] then Some(j)
    else
      match Child(j, path[0])
      case None => None
      case Some(c) => Resolve(c, path[1..])
  }

  /** What `t(key)` returns: the string the key's segments lead to, or the key. */
  function T(translations: Json, key: string): string {
    match Resolve(translations, Split(key, '.'))
    case Some(JStr(s)) => s
    case _ => key
  }

  /** `t(key)`: split the key on '.', descend one segment per iteration, give
      up with the key as soon as a segment is missing. */
  method Translate(translations: Json, key: string) returns (r: string)
    ensures r == T(translations, key)
  {
    var keys := Split(key, '.');
    var result := translations;
    var i := 0;
    while i < |keys|
      invariant 0 <= i <= |keys|
      invariant Resolve(translations, keys) == Resolve(result, keys[i..])
    {
      assert keys[i..][0] == keys[i] && keys[i..][1..] == keys[i + 1..];
      var next := Child(result, keys[i]);
      if next.None? {
        return key;
      }
      result := next.value;
      i := i + 1;
    }
    assert keys[i..] == [];
    if result.JStr? {
      return result.s;
    }
    return key;
  }

  /** Walking `p` then `q` is walking `p + q`. */
  lemma {:induction false} ResolveAppend(j: Json, p: seq<string>, q: seq<string>)
    ensures Resolve(j, p + q) == match Resolve(j, p) case None => None case Some(c) => Resolve(c, q)
    decreases |p|
  {
    if p == [] {
      assert p + q == q;
    } else {
      assert (p + q)[0] == p[0] && (p + q)[1..] == p[1..] + q;
      match Child(j, p[0])
      case None =>
      case Some(c) => ResolveAppend(c, p[1..], q);
    }
  }

  /** The first segment of a dotted key is looked up first, and the rest of
      the key is looked up below it. */
  lemma DescendSegment(j: Json, k: string, rest: string)
    requires '.' !in k
    ensures Resolve(j, Split(k + "." + rest, '.'))
         == match Child(j, k) case None => None case Some(c) => Resolve(c, Split(rest, '.'))
  {
    SplitAtSeparator(k, '.', rest);
    assert k + "." + rest == k + ['.'] + rest;
  }

  /** A missing segment anywhere along the way makes `t` return the key. */
  lemma MissingSegmentGivesKey(translations: Json, key: string, n: nat)
    requires n <= |Split(key, '.')|
    requires Resolve(translations, Split(key, '.')[..n]) == None
    ensures T(translations, key) == key
  {
    var keys := Split(key, '.');
    assert keys == keys[..n] + keys[n..];
    ResolveAppend(translations, keys[..n], keys[n..]);
  }

  /** `t` returns either the key or a string stored in the tree at the end of
      the key's segments; a path ending at an object, an array or a number
      gives the key. */
  lemma TranslateIsKeyOrLeaf(translations: Json, key: string)
    ensures T(translations, key) == key
         || Resolve(translations, Split(key, '.')) == Some(JStr(T(translations, key)))
    ensures (match Resolve(translations, Split(key, '.')) case Some(JStr(_)) => false case _ => true)
         ==> T(translations, key) == key
  {
  }

  /** Before the translation file loads every key is shown as itself. */
  lemma NothingLoadedShowsKeys(key: string)
    ensures T(NoTranslations, key) == key
  {
    var keys := Split(key, '.');
    assert Child(NoTranslations, keys[0]) == None;
  }

  /** A key without dots names a top-level entry. */
  lemma SingleSegment(fields: map<string, Json>, key: string)
    requires '.' !in key
    ensures key in fields && fields[key].JStr? ==> T(JObj(fields), key) == fields[key].s
    ensures key !in fields ==> T(JObj(fields), key) == key
  {
    SplitWithoutSeparator(key, '.');
    assert [key][1..] == [];
    if key in fields {
      assert Resolve(JObj(fields), [key]) == Some(fields[key]);
    }
  }

  /** A nested entry is reached through its parent. */
  lemma NestedEntry(parent: string, child: string, leaf: string)
    requires '.' !in parent && '.' !in child
    ensures T(JObj(map[parent := JObj(map[child := JStr(leaf)])]), parent + "." + child) == leaf
  {
    var inner := map[child := JStr(leaf)];
    var tr := JObj(map[parent := JObj(inner)]);
    DescendSegment(tr, parent, child);
    assert Child(tr, parent) == Some(JObj(inner));
    SplitWithoutSeparator(child, '.');
    assert [child][1..] == [];
    assert Resolve(JObj(inner), [child]) == Some(JStr(leaf));
  }

  /** The parent of an entry is an object, and shows as its key. */
  lemma ParentShowsKey(parent: string, child: string, leaf: string)
    requires '.' !in parent
    ensures T(JObj(map[parent := JObj(map[child := JStr(leaf)])]), parent) == parent
  {
    var tr := JObj(map[parent := JObj(map[child := JStr(leaf)])]);
    SplitWithoutSeparator(parent, '.');
    assert [parent][1..] == [];
    assert Resolve(tr, [parent]) == Some(tr.fields[parent]);
  }

  /** Nothing is found below a string. */
  lemma BelowStringShowsKey(parent: string, child: string, leaf: string, rest: string)
    requires '.' !in parent && '.' !in child
    ensures T(JObj(map[parent := JObj(map[child := JStr(leaf)])]), parent + "." + child + "." + rest)
         == parent + "." + child + "." + rest
  {
    var inner := JObj(map[child := JStr(leaf)]);
    var tr := JObj(map[parent := inner]);
    assert parent + "." + child + "." + rest == parent + "." + (child + "." + rest);
    DescendSegment(tr, parent, child + "." + rest);
    DescendSegment(inner, child, rest);
    var below := Split(rest, '.');
    assert Resolve(JStr(leaf), below) == None;
  }
}
